=== FILE: README.md ===
# Shared-world client and user endpoints, modelled in Dafny

This project models the world manager of a multi-user virtual world client.
The world manager is the piece that connects a local 3D scene to a shared
world held on a server. It does five things:

- It classifies every shared object the server announces and loads its
  local representation. The representation is an articulated 3D avatar, a
  video avatar or a generic mesh.
- It routes every remote property change of a shared object to that
  representation. Position, rotation and scale changes drive interpolation
  handles. Avatar-specific fields go to the avatar, and any other field is
  dispatched by name.
- It unloads a removed object and disposes of the resources the object
  holds.
- It samples the local user's pose on a timer and publishes only the
  quantities that moved by more than a tolerance.
- It runs the handshake that enters a world.

Two small pieces of the server are modelled alongside:

- the user endpoints, which decide whether a name is available and who is
  logged in;
- the object filter combinators.

Everything the original does through the rendering engine, the network or
the timer is reduced to data:

- A loading or change step returns the updated shared object together with
  the list of effects it asks of its collaborators. Examples are creating
  an interpolation handle, invoking a method on the avatar, notifying
  listeners, streaming media and disposing of a resource.
- Rendering-engine objects are opaque numbered handles.
- A fetch is an outcome parameter.
- The timer is a state with a handle counter.

Modules:

- `WorldTypes`: shared data model. Samples, nodes, animations, poses and the
  shared object itself.
- `ChangeTracker`: the outbound tick. `checkChange`, `isChanged` and
  `trackChanges`.
- `Session`: the session timer. `setSessionStatus`, `isOnline` and the frame
  rate default.
- `Handshake`: the commands `enter` sends.
- `SceneEvents`: `sceneChanged`.
- `ChangeRouter`: `changeAvatar`, `changeObject`, `routeEvent`,
  `getRootNode`, and the field loop with its notifications.
- `Lifecycle`: `loadStream`, the `loadAvatar` callback, the `loadMesh`
  callback and `removeMesh`.
- `FixProbe`: the path arithmetic of `loadAvatar` and its fix-file probe
  with the negative cache.
- `UserController`: `checkName`, `authenticated`, `userName` and
  `userObject`.
- `Filter`: `isActive`, `isOwned`, `isActiveOrOwned` and
  `removeOfflineClients`.

Two behaviours of the code are easy to miss:

- Only video avatars get the default position (1000, 1000, 1000) and the
  default rotation, and only when they arrive at the origin
  (babylon/js/ui/world-manager.js:211-233). The `loadMesh` callback
  (babylon/js/ui/world-manager.js:377-396) applies no default, so a generic
  mesh at the origin stays there (`Lifecycle.MeshLoaded`). The `loadAvatar`
  callback (babylon/js/ui/world-manager.js:284-306) moves an articulated
  avatar to wherever its shared object says.
- `changeAvatar` mirrors arm data in two different ways
  (babylon/js/ui/world-manager.js:335-344, `ChangeRouter.ArmsAreMirrored`).
  A left-arm position makes the avatar's right arm reach for it. A left-arm
  rotation sets the left arm's aim from the right arm's record. The arm
  records stay null until a VR user with that controller sends them. A
  change whose record is null throws a `TypeError`, and the rest of that
  batch is not handled (`ChangeRouter.NullArmRecordThrows`,
  `ChangeRouter.ThrowEndsBatch`).

## Model

| member | source | states |
|---|---|---|
| ChangeTracker.IsChanged | babylon/js/ui/world-manager.js:641-643 | a value has changed exactly when it lies outside the closed tolerance interval around the previous value |
| ChangeTracker.CheckChange | babylon/js/ui/world-manager.js:627-637 | within tolerance on all three axes: neither the record nor the batch changes; otherwise x, y and z are overwritten together, w is kept, and exactly one entry for the field is appended |
| ChangeTracker.MeshPosition | babylon/js/ui/world-manager.js:568-572 | the tracked mesh position keeps x and z, and y is lowered by the ellipsoid's y when the mesh has an ellipsoid |
| ChangeTracker.CameraPosition | babylon/js/ui/world-manager.js:581-589 | with an ellipsoid the camera's y is lowered by twice the ellipsoid's y and raised by the ellipsoid offset when there is one; x and z, and the whole position without an ellipsoid, are the global position |
| ChangeTracker.CameraRotation | babylon/js/ui/world-manager.js:590-595 | a WebXR camera reports the Euler angles of its quaternion, any other camera its rotation |
| ChangeTracker.CheckChangeSettles | babylon/js/ui/world-manager.js:627-637 | after a comparison the record is within tolerance of the sample it was compared with |
| ChangeTracker.CheckChangeIgnoresW | babylon/js/ui/world-manager.js:74-76 | the `w` of the arm rotation records neither affects a comparison nor is written by one |
| ChangeTracker.UnsetComparesLikeZero | babylon/js/ui/world-manager.js:66-68 | the null-initialised records compare like the origin: the first sample is reported only if it is farther than the tolerance from 0 |
| ChangeTracker.NotifyAll | babylon/js/ui/world-manager.js:617-620 | every change listener, in order, receives the same batch |
| ChangeTracker.Publish | babylon/js/ui/world-manager.js:617-620 | a non-empty batch is sent once and then given to every listener in order; an empty batch causes nothing; the state and batch are kept |
| ChangeTracker.SampleMesh | babylon/js/ui/world-manager.js:566-574 | third-person view: the batch is the position entry then the rotation entry, each present iff that quantity moved, with the position lowered by the ellipsoid; both records settle on what was compared; arms and height are untouched |
| ChangeTracker.SampleCamera | babylon/js/ui/world-manager.js:575-615 | first-person view: the batch is the position entry, the rotation entry only with rotation tracking, then the VR helper entries, each present iff its quantity moved; the batch is empty iff everything sampled is within tolerance; arms are sampled only with a VR helper and its controller |
| ChangeTracker.CheckIf | babylon/js/ui/world-manager.js:596-608 | a quantity that is not sampled leaves record and batch alone; a sampled one behaves as one comparison: its entry is appended iff it moved and the record settles |
| ChangeTracker.SampleArm | babylon/js/ui/world-manager.js:602-609 | one controller appends its position entry then its rotation entry, each iff that record moved, and settles both records; without the controller nothing changes |
| ChangeTracker.SampleVr | babylon/js/ui/world-manager.js:599-615 | the batch grows by the left controller's entries, then the right controller's, then the height entry iff the height moved; the records and the height settle; a missing controller leaves its records alone |
| ChangeTracker.VrReferenceFacts | babylon/js/ui/world-manager.js:599-615 | the VR helper's entries only append, are empty iff every sampled controller record and the height are within tolerance, and never name rotation |
| ChangeTracker.CameraReferenceFacts | babylon/js/ui/world-manager.js:575-615 | the first-person reference tick is empty iff the tick is quiet, names rotation only with rotation tracking, and touches a controller's records only when the controller exists |
| ChangeTracker.TrackChanges | babylon/js/ui/world-manager.js:564-622 | the published batch and the recorded state are the reference tick: position, rotation, arms, height, each judged against the previous record; something is sent iff some sampled quantity moved, and then the batch is sent once and given to every listener; with no mesh and no camera nothing happens |
| ChangeTracker.SecondTickQuiet | babylon/js/ui/world-manager.js:564-637 | a second tick over the same frame publishes nothing |
| ChangeTracker.MeshModeIgnoresTrackRotation | babylon/js/ui/world-manager.js:566-597 | in third-person view the rotation-tracking switch makes no difference |
| Session.Fps | babylon/js/ui/world-manager.js:60-64 | a truthy requested frame rate (present and not 0) is kept, including fractional rates; a missing rate or 0 falls back to 5; the result is never 0 |
| Session.PeriodMs | babylon/js/ui/world-manager.js:137 | the timer period in milliseconds times the frame rate is 1000 |
| Session.IsOnline | babylon/js/ui/world-manager.js:146-148 | the client is online exactly when a timer handle is held |
| Session.SetSessionStatus | babylon/js/ui/world-manager.js:133-148 | afterwards the client is online iff the call asked for it; a timer is started only when none runs and cleared only when one runs; a call that matches the current status does nothing |
| Session.SetSessionStatusIdempotent | babylon/js/ui/world-manager.js:133-143 | repeating a status call changes nothing and emits nothing |
| Session.ReplayBalanced | babylon/js/ui/world-manager.js:133-148 | over any sequence of status calls, timers started minus timers cleared equals the change in running timers, and the final status is that of the last call |
| Session.OnTwiceOffTwice | babylon/js/ui/world-manager.js:133-143 | on, on, off, off starts exactly one timer and clears that same timer once |
| Handshake.SendAll | babylon/js/ui/world-manager.js:667-671 | one property send per own property, in order |
| Handshake.Enter | babylon/js/ui/world-manager.js:651-697 | offline: connect first, then after the welcome send every property, Enter (only for a truthy world name) and Session last; online: reuse the connection and send only Enter; which welcome settles the call |
| Handshake.EnterConnectsOnlyWhenOffline | babylon/js/ui/world-manager.js:651-697 | enter connects exactly once when offline and never when online |
| Handshake.AliceEnters | babylon/js/ui/world-manager.js:651-697 | a concrete offline enter with one property yields connect, property, Enter, Session |
| SceneEvents.SceneChanged | babylon/js/ui/world-manager.js:155-177 | an added object takes exactly one path in priority order avatar, video, mesh, skip (an empty mesh is skipped); only without an addition is a removed object removed; an event with neither is invalid |
| SceneEvents.AvatarTakesPriority | babylon/js/ui/world-manager.js:156-163 | the avatar capability wins over any mesh reference, and an addition wins over a removal |
| SceneEvents.EmptyMeshIsSkipped | babylon/js/ui/world-manager.js:164-170 | an empty mesh string is falsy, so the object is skipped |
| ChangeRouter.Animate | babylon/js/ui/world-manager.js:323-332 | a handle is created only when the slot is empty and is then kept; the handle in the slot, old or new, is then driven to the target, as the last effect |
| ChangeRouter.AvatarEffect | babylon/js/ui/world-manager.js:333-348 | animation starts the object's animation, name sets the name, userHeight tracks the height; an arm position makes the opposite arm reach for the named arm's position, as a vector of its coordinates; an arm rotation sets the named arm's aim to a quaternion of the opposite arm's rotation, with `w` 1 when the record has none; the effect is a `TypeError` for that field exactly when the record it reads is null |
| ChangeRouter.RouteTarget | babylon/js/ui/world-manager.js:507-517 | the routing target is the avatar or asset container, else the video avatar, else the instantiated entries, else none |
| ChangeRouter.RouteEvent | babylon/js/ui/world-manager.js:506-526 | the target's method named after the field is invoked iff it has one; otherwise the object's `<field>Changed` handler if it exists; no target and no handler are distinct outcomes |
| ChangeRouter.Handle | babylon/js/ui/world-manager.js:320-351 | one field: apart from a handle creation, exactly one action: a position, rotation or (object) scale change drives its slot's handle to the current value, an avatar field goes to the avatar, any other field is routed by name; a handle is created exactly for the empty slot the field drives; nothing but the handles changes on the object |
| ChangeRouter.HandleRetargets | babylon/js/ui/world-manager.js:323-332 | a position, rotation or (object) scale change ends by driving the slot's handle, old or new at the node, to the object's current value |
| ChangeRouter.HandleAvatarFields | babylon/js/ui/world-manager.js:333-348 | on an avatar, animation, name, userHeight and the four arm fields produce exactly their avatar effect, which for an arm field with a null record is the `TypeError`, and leave the object unchanged |
| ChangeRouter.Handled | babylon/js/ui/world-manager.js:320-353 | the length of the longest prefix of a batch in which no arm field reads a null record; when it is shorter than the batch, the next field reads a null record |
| ChangeRouter.HandledStops | babylon/js/ui/world-manager.js:320-353 | a batch whose first throwing field follows `done` is handled up to `done` and no further |
| ChangeRouter.Step | babylon/js/ui/world-manager.js:320-352 | one loop iteration: the field's action, then exactly one notification of that field at the node, which ends the iteration |
| ChangeRouter.NotifiedAppend | babylon/js/ui/world-manager.js:320-353 | notifications, handle creations and the other effects of two effect lists add up over their concatenation |
| ChangeRouter.Apply | babylon/js/ui/world-manager.js:320-353 | apart from handle creations, the effects are each field's action then its notification, in batch order; each slot ends holding its old handle or the one created for the first field that drives it; at most one handle per slot is created; nothing else on the object changes |
| ChangeRouter.TraceStable | babylon/js/ui/world-manager.js:320-353 | the handles a batch creates on empty slots do not change what the later fields of the batch do |
| ChangeRouter.TraceAppend | babylon/js/ui/world-manager.js:320-353 | the actions and notifications of a concatenated batch are those of its parts, in order |
| ChangeRouter.ApplyGrew | babylon/js/ui/world-manager.js:320-353 | the loop changes nothing on the object but its handles, and only fills an empty slot, with a handle on the node |
| ChangeRouter.GrewTwice | babylon/js/ui/world-manager.js:320-353 | two batches on the same node only fill empty slots, with handles on that node |
| ChangeRouter.GetRootNode | babylon/js/ui/world-manager.js:464-471 | the root node is the container's first mesh, else the instantiated entries' first root node, else none |
| ChangeRouter.ChangeAvatar | babylon/js/ui/world-manager.js:316-354 | for the fields before the first one that reads a null arm record: each field's action followed by its notification at the avatar's parent mesh, in order, with position and rotation handles following those fields; that throwing field ends the batch with its `TypeError`, and nothing after it is handled or notified; a batch that never throws is the whole loop; an avatar never gets a scale handle |
| ChangeRouter.ChangeObject | babylon/js/ui/world-manager.js:473-499 | each changed field's action followed by its notification, in order, at the given node or else the object's root node; position, rotation and scale handles follow the batch; a batch with a position, rotation or scale field needs a node or a root |
| ChangeRouter.FoldConcat | babylon/js/ui/world-manager.js:320-353 | running the field loop over two concatenated batches is running it over the first batch and then the second |
| ChangeRouter.ApplyIsFold | babylon/js/ui/world-manager.js:473-499 | the change loop is the generic field loop with one step per field |
| ChangeRouter.ApplyConcat | babylon/js/ui/world-manager.js:473-499 | applying two batches one after the other equals applying their concatenation |
| ChangeRouter.ApplyCons | babylon/js/ui/world-manager.js:473-499 | the loop handles the first field, then the rest of the batch on the updated object |
| ChangeRouter.ApplyOne | babylon/js/ui/world-manager.js:320-353 | the loop over a batch of one field is one iteration |
| ChangeRouter.HandleReused | babylon/js/ui/world-manager.js:324-327 | once a batch with a position change has run, later batches create no position handle |
| ChangeRouter.ArmsAreMirrored | babylon/js/ui/world-manager.js:335-344 | when its record is present, an arm position drives the avatar's opposite arm, and an arm rotation sets the named arm's aim from the opposite arm's record; each is then notified at the parent mesh |
| ChangeRouter.NullArmRecordThrows | babylon/js/ui/world-manager.js:335-344 | a one-field arm batch whose record is null throws a `TypeError`: the object is unchanged and nothing is notified |
| ChangeRouter.ThrowEndsBatch | babylon/js/ui/world-manager.js:316-354 | when an arm field with a null record follows fields that do not throw, the result is those fields' loop followed by the `TypeError`, whatever comes after |
| ChangeRouter.OneAvatarField | babylon/js/ui/world-manager.js:333-352 | a one-field batch of an avatar field yields its avatar effect and then its notification at the parent mesh, or only the `TypeError` when its arm record is null |
| ChangeRouter.AvatarFieldHandled | babylon/js/ui/world-manager.js:333-352 | a one-field batch of an avatar field whose record is present yields its avatar effect and then its notification at the parent mesh |
| ChangeRouter.AvatarFieldThrows | babylon/js/ui/world-manager.js:335-344 | a one-field batch of an arm field whose record is null yields only its `TypeError` and leaves the object unchanged |
| ChangeRouter.UnknownFieldTolerated | babylon/js/ui/world-manager.js:349-352 | an unknown field is routed and notified and does not change the object |
| Lifecycle.DisposeHeld | babylon/js/ui/world-manager.js:530-556 | only resources the object holds are disposed of, at most one per resource looked at |
| Lifecycle.DisposeHeldRanked | babylon/js/ui/world-manager.js:530-556 | looking at the resources in a fixed order disposes of them in that order |
| Lifecycle.DisposeHeldCounts | babylon/js/ui/world-manager.js:530-556 | each held resource is disposed of exactly once and no other resource is |
| Lifecycle.DisposalOrderComplete | babylon/js/ui/world-manager.js:530-556 | the disposal order covers every resource and repeats none |
| Lifecycle.Disposals | babylon/js/ui/world-manager.js:530-556 | the disposals of a removal are exactly the held resources, once each, in the fixed order |
| Lifecycle.RemoveMesh | babylon/js/ui/world-manager.js:530-556 | media streams are dropped (when there are any) and the object unloaded before anything is disposed; each held resource is disposed of once, in order; afterwards the object holds nothing |
| Lifecycle.RemovePrefix | babylon/js/ui/world-manager.js:531-534 | a removal begins by dropping the media streams iff there are any, and then unloads the object |
| Lifecycle.RemoveTwiceDisposesNothing | babylon/js/ui/world-manager.js:530-556 | removing an object a second time disposes of nothing |
| Lifecycle.Decimal | babylon/js/ui/world-manager.js:196 | a number's decimal numeral is a non-empty digit string without a leading zero |
| Lifecycle.DecimalRoundTrip | babylon/js/ui/world-manager.js:196 | the numeral of a number reads back as that number |
| Lifecycle.AltText | babylon/js/ui/world-manager.js:193-197 | the alt text is the truthy name, else "u" followed by the decimal id, which reads back as the id |
| Lifecycle.InitPosition | babylon/js/ui/world-manager.js:211-220 | a position at the origin is replaced by the default; only then is the translation handle (the object's own, else a new position handle at the root) driven to the default, and the change notified at the root; other fields are unchanged |
| Lifecycle.InitRotation | babylon/js/ui/world-manager.js:222-233 | a present rotation at the origin is replaced by the default, the rotation handle (the object's own, else a new Euler-rotation handle at the root) is driven to it and the change notified at the root; a missing or non-zero rotation is left alone |
| Lifecycle.DefaultRotationLooksUnset | babylon/js/ui/world-manager.js:46-48 | the default rotation is the origin, so an object given it still looks unplaced and would receive the defaults again, while the default position is not the origin |
| Lifecycle.PlaceStream | babylon/js/ui/world-manager.js:211-233 | the default position replaces exactly an origin position, and the default rotation exactly an origin rotation that is present; each replaced value drives its handle at the root, position first, and is notified at the root; the handles of values not replaced are kept; a settled pose (non-origin position, absent or non-origin rotation) is left untouched with no effects |
| Lifecycle.Attach | babylon/js/ui/world-manager.js:235-241 | every loading path ends with installing the change listener, then the stream effect, then the load notification |
| Lifecycle.LoadStream | babylon/js/ui/world-manager.js:187-242 | a video avatar is recorded on the object, labelled with its alt text, its root node placed where the pose now is; the replaced defaults drive their handles at the avatar's own root node and are notified there; then it is attached with a stream to its mesh or a warning when there are no media streams; defaults are applied at most once: with non-origin defaults the result is settled, and a settled object keeps its pose and notifies nothing |
| Lifecycle.NoNotifications | babylon/js/ui/world-manager.js:356-358 | effects without change notifications notify nothing |
| Lifecycle.AttachSuffix | babylon/js/ui/world-manager.js:235-241 | attaching adds no notification and no handle creation, and ends the effect list |
| Lifecycle.NoCreations | babylon/js/ui/world-manager.js:235-241 | effects without handle creations are kept whole when creations are left out |
| Lifecycle.ChangeIf | babylon/js/ui/world-manager.js:291-298 | a guarded single-field change performs the field's action and its notification at the node iff its guard holds, and a slot gains a handle iff the guard holds, the slot was empty and the field drives it; nothing else changes |
| Lifecycle.Finish | babylon/js/ui/world-manager.js:235-241 | ending a loading path keeps the object, the notifications, the actions and the first effect, and appends exactly the attachment |
| Lifecycle.ChangeIf2 | babylon/js/ui/world-manager.js:291-298 | two guarded single-field batches perform and notify the present fields in order, each action judged from the object before both; a slot gains a handle iff it was empty and a present field drives it |
| Lifecycle.NameAndPosition | babylon/js/ui/world-manager.js:290 | a loaded avatar first gets its name set and then its position driven at its parent mesh, each notified there |
| Lifecycle.AvatarCatchUp | babylon/js/ui/world-manager.js:290-298 | a loaded avatar gets the actions and notifications, at its parent mesh, of name and position, then rotation if present, then animation if truthy; a present rotation drives the avatar's quaternion handle (its own, else a new one at the parent mesh); without a rotation the rotation handle is kept |
| Lifecycle.CatchUpTrace | babylon/js/ui/world-manager.js:290-298 | the catch-up fields act and notify as name and position, then the rotation if present, then the animation if truthy |
| Lifecycle.RecordAndCatchUp | babylon/js/ui/world-manager.js:284-298 | the avatar and entries are recorded, then the avatar is brought up to date at its parent mesh |
| Lifecycle.AvatarFirstEffect | babylon/js/ui/world-manager.js:290 | the first thing done to a loaded avatar is setting its name |
| Lifecycle.AvatarLoaded | babylon/js/ui/world-manager.js:284-306 | the loaded avatar and its entries are recorded; the first effect sets the name; name, position, rotation if present and animation if truthy are notified in that order; every action and notification is at the avatar's parent mesh, the position handle sits there, and a present rotation drives the quaternion handle there; the path ends with its listener, a stream only when media streams exist, and the load notification |
| Lifecycle.MeshCatchUp | babylon/js/ui/world-manager.js:380-387 | a loaded mesh gets the actions and notifications, at its root node, of position, then scale if present, then rotation if present: each drives its handle to the pose as loaded; the position handle, and the scale and rotation handles when those values are present, are the existing ones or new ones at its root node |
| Lifecycle.MeshLoaded | babylon/js/ui/world-manager.js:377-396 | apart from handle creations, the effects are the actions and notifications at the mesh's root node of position, then scale if present, then rotation if present, each driving its handle to the pose, followed by the attachment; its handles are the existing ones or new ones at its root node, scale and rotation only when present; its pose stays as delivered, so a mesh at the origin keeps it and no default is applied; the path ends with its listener, a stream only when media streams exist, and the load notification |
| Lifecycle.MeshTrace | babylon/js/ui/world-manager.js:380-387 | the mesh fields act and notify as the position batch, then the scale batch if present, then the rotation batch if present |
| FixProbe.LastIndexOf | babylon/js/ui/world-manager.js:247 | the result is -1 iff the character is absent, and otherwise an occurrence with none after it |
| FixProbe.LastIndexOfBound | babylon/js/ui/world-manager.js:247 | every occurrence lies at or before the last index |
| FixProbe.Substring | babylon/js/ui/world-manager.js:248-253 | substring with in-range bounds is the slice; a negative end counts as 0 and the bounds are swapped, giving the prefix up to the (clamped) start |
| FixProbe.CutAtLastSlash | babylon/js/ui/world-manager.js:247-249 | a path with a slash is the part before its last slash, a slash and a slash-free file; without a slash the whole string is the file |
| FixProbe.SplitAfterLastSlash | babylon/js/ui/world-manager.js:251-253 | the base URL and directory concatenate back to the path; the base URL is empty or ends in a slash, and the directory has no slash |
| FixProbe.SplitMesh | babylon/js/ui/world-manager.js:247-253 | base URL, directory, a slash and the file give back the mesh path; a mesh without a slash is all file |
| FixProbe.LowerCase | babylon/js/ui/world-manager.js:257 | lower-casing maps every character and keeps the length |
| FixProbe.FixPath | babylon/js/ui/world-manager.js:256-260 | a ".glb" file (in any case) probes the mesh path up to its last dot plus "-fixes.json"; any other file probes the base URL and directory plus "-fixes.json" |
| FixProbe.GlbDotInFile | babylon/js/ui/world-manager.js:257-259 | for a ".glb" file the last dot of the mesh path lies after its last slash |
| FixProbe.GlbHasDot | babylon/js/ui/world-manager.js:257 | a ".glb" file name ends with a dot and three letters |
| FixProbe.ProbeFix | babylon/js/ui/world-manager.js:261-275 | a cached path is not fetched and yields no fix; otherwise it is fetched, an ok answer yields the fix, and any failure appends it to the cache; afterwards the path is cached iff there is no fix |
| FixProbe.FailedProbeIsCached | babylon/js/ui/world-manager.js:261-275 | once a probe failed, the same path is never fetched again by a later load |
| FixProbe.ProbeAllKeepsCacheDistinct | babylon/js/ui/world-manager.js:87 | over any run of probes the negative cache only grows and never holds a path twice |
| FixProbe.EndProbeAsWritten | babylon/js/ui/world-manager.js:262-272 | a settled fetch appends its path to the cache on any failure, without looking again, and leaves the cache alone on success |
| FixProbe.OverlappingLoadsCacheTwice | babylon/js/ui/world-manager.js:261-272 | two loads that both consult the empty cache before either fetch fails leave the same path in the cache twice |
| FixProbe.EndProbe | babylon/js/ui/world-manager.js:261-272 | the corrected end of a probe: the path is cached afterwards iff it was or the fetch failed, nothing else is added, the old cache is a prefix, no path is cached twice, and it agrees with the code whenever the path was not yet cached |
| FixProbe.OverlappingLoadsKeepCacheDistinct | babylon/js/ui/world-manager.js:261-272 | with the corrected end, any interleaving of settled fetches keeps the cache free of repeats and caches exactly the paths that were cached or failed |
| FixProbe.LoadAvatar | babylon/js/ui/world-manager.js:245-276 | the folder and file recompose the mesh path; the folder has a fix iff the fix path was not cached and the fetch was ok; the cache only grows |
| FixProbe.LastIndexOfAt | babylon/js/ui/world-manager.js:247 | an occurrence with none after it is the last index |
| FixProbe.DirectoryFixPath | babylon/js/ui/world-manager.js:256 | a non-glb model probes "<directory>-fixes.json" beside its directory |
| FixProbe.GlbFixPath | babylon/js/ui/world-manager.js:257-259 | a glb model probes "<name>-fixes.json" in its own directory |
| FixProbe.GlbExtension | babylon/js/ui/world-manager.js:257 | an extension that lower-cases to ".glb" is a dot and three letters, and makes any name a glb file |
| UserController.Leading | server/src/main/java/org/metaverse/server/api/UserController.java:39 | the leading run of characters at or below the space character |
| UserController.Trailing | server/src/main/java/org/metaverse/server/api/UserController.java:39 | the trailing run of characters at or below the space character |
| UserController.Trim | server/src/main/java/org/metaverse/server/api/UserController.java:39 | the trimmed string is the slice between the leading and trailing blanks, and starts and ends with a non-blank character |
| UserController.IsBlank | server/src/main/java/org/metaverse/server/api/UserController.java:39 | a name is blank iff it is null or consists only of characters at or below the space character |
| UserController.UserName | server/src/main/java/org/metaverse/server/api/UserController.java:69-74 | the user name is the session attribute, null when absent |
| UserController.Authenticated | server/src/main/java/org/metaverse/server/api/UserController.java:58-61 | a session is authenticated iff it has a user name |
| UserController.CheckName | server/src/main/java/org/metaverse/server/api/UserController.java:38-50 | a blank name is available iff guests are allowed; another name is available iff nobody has it, or its client's name equals the session's user name |
| UserController.UserObject | server/src/main/java/org/metaverse/server/api/UserController.java:82-89 | no object without a login; otherwise the client stored under the user name, if any |
| UserController.BlankIgnoresDatabase | server/src/main/java/org/metaverse/server/api/UserController.java:39-41 | the answer for a blank name depends only on the guest setting |
| UserController.TakenNameNeedsLogin | server/src/main/java/org/metaverse/server/api/UserController.java:42-44 | a taken name is never available to a session that is not logged in |
| UserController.OwnNameAvailable | server/src/main/java/org/metaverse/server/api/UserController.java:38-89 | a logged-in user whose stored client carries their name may always check that name |
| UserController.TakenNameHasOneOwner | server/src/main/java/org/metaverse/server/api/UserController.java:42-44 | two sessions both told that the same taken name is theirs are logged in under the same name |
| Filter.IsActive | server/src/main/java/org/metaverse/server/types/Filter.java:11-13 | admits exactly the active objects |
| Filter.IsOwned | server/src/main/java/org/metaverse/server/types/Filter.java:15-17 | admits exactly the objects the client owns |
| Filter.IsActiveOrOwned | server/src/main/java/org/metaverse/server/types/Filter.java:19-21 | is the union of the active filter and the owned filter |
| Filter.RemoveOfflineClients | server/src/main/java/org/metaverse/server/types/Filter.java:23-25 | admits every object that is not a client, and a client iff the active filter does |
| Filter.ActiveOrOwnedWidens | server/src/main/java/org/metaverse/server/types/Filter.java:11-21 | either half of the union admits an object on its own |
| Filter.OfflineFilterWeakerThanActive | server/src/main/java/org/metaverse/server/types/Filter.java:11-25 | every active object survives the offline filter, and only non-clients survive it while being inactive |

## Left out

- Rendering-engine objects are opaque numbered handles:
  - Babylon meshes, transform nodes, asset containers, the avatar factory and the avatar loader.
  - Their internals are outside the world manager.
  - The labels and ids set on a video mesh (`video.mesh.name`, `video.mesh.id`) are not recorded.
  - The avatar's load parameters (fps, user height, arm animation, turn-around) are not recorded.
- Asynchrony: promises, `await fetch` and loader callbacks are reduced to the order of their effects. The fetch result is an outcome parameter (ok, not ok, rejected).
- Floating point: coordinates are reals. Rounding in the tolerance comparison is not modelled.
- `pubSub`, `log`, `enableRemoteLogging`, `trackMesh` and `trackCamera`: the tracked mesh, camera and VR helper are inputs to a tick.
- The bounding-box helpers (`boundingBox`, `bBox`, `bBoxMax`): geometry of engine meshes, used by no modelled path.
- `addMyChangeListener` and `removeMyChangeListener`: own-change listeners are a list of ids passed to a tick. Registering is list manipulation.
- `notifyLoadListeners` and the load callback: appear as one "load notification" effect.
- The load error handler and the `loadMesh` guard against a null mesh reference: `sceneChanged` never takes the mesh path for a falsy mesh.
- `mediaStreams` is a flag. What streaming does is the media-stream component's business.
- `createAnimations`: not consulted by any modelled path.
- `customOptions`: not consulted by any modelled path.
- The default position and rotation are aliased: the world manager assigns its own default vector to the object, so a later in-place change to one would affect the other. Values are immutable here.
- FixProbe.LowerCase: maps only ASCII letters, not the full Unicode case mapping of `toLowerCase`.
- UserController.UserName: a session attribute that is not a string (a `ClassCastException` in Java) cannot occur, because the session is a map to strings.
- UserController.CheckName: the debug logging and the suggested delay against name enumeration are not modelled.
- Filter: whether an object is active and whether a client owns it are decided by the server's object classes. These are a field and a relation parameter here.
- `enter`'s error listener, the call to `world.entered` and turning on remote logging after a welcome: bookkeeping outside the command sequence. `sendMy(obj)` (the manager's own pass-through to the connection) is a one-line forward.
- Session.SetSessionStatus: the timer callback itself is the change tracker's tick, modelled separately.
- ChangeRouter.ChangeObject: a batch with a position, rotation or scale field, no node and no root node makes the source throw a `TypeError` when it reads the undefined node (babylon/js/ui/world-manager.js:483, 488, 493). The model does not represent the exception, so the contract requires a node or a root for such a batch. Lifecycle.MeshCatchUp and Lifecycle.MeshLoaded likewise require the container or entries that the asset loader sets before the callback runs.
- FixProbe.FailedProbeIsCached and FixProbe.ProbeAllKeepsCacheDistinct: hold for loads whose fetch has settled before the next load consults the cache. Loads that overlap while a fetch is pending are covered under "## Findings".
- FixProbe.EndProbe: keeps a path from being cached twice, but two overlapping loads still both fetch it. Stopping the second fetch would need a table of pending probes, which the code does not have.
- ChangeRouter.Apply and ChangeRouter.Step: the loop itself is total and records a `TypeError` as an effect. `ChangeRouter.ChangeAvatar` never runs a throwing field through it: it runs the loop on the fields before the throw and ends the batch there.
- ChangeTracker.SampleVr: `vrHelper.realWorldHeight()` is called twice, once to compare and once to store (babylon/js/ui/world-manager.js:611-612). The model takes both calls to return the same height and reads it once.
- Session.Fps: a `NaN` frame rate, which is falsy in JavaScript, is not modelled, since rates are reals.

## Findings

| source | as written | input that shows it | evidently intended | confidence | as-written member | corrected member |
|---|---|---|---|---|---|---|
| babylon/js/ui/world-manager.js:261-272 | `loadAvatar` checks the negative cache before awaiting the fetch and pushes the path after it, without checking again; `sceneChanged` does not await `loadAvatar` (lines 160-161) | two avatars with the same missing fix file arrive before either fetch fails: both see an empty cache, both fetches fail, and the cache holds the path twice | each missing path is cached once, as the corrected end does; both overlapping loads still fetch the path, since the second consults the cache before the first fetch fails, and the model leaves that double fetch as it is | not executed; medium | FixProbe.EndProbeAsWritten, FixProbe.OverlappingLoadsCacheTwice | FixProbe.EndProbe, FixProbe.OverlappingLoadsKeepCacheDistinct |

=== FILE: change_router.dfy ===
/** Applying remote changes to the local representation of a shared object.
    `changeAvatar` and `changeObject` walk the changed field names in order;
    built-in fields drive interpolation handles (created on first use and
    reused afterwards) or avatar operations, every other field is routed to a
    function of the representation or of the object, and every field is
    reported to the change listeners once. */
module ChangeRouter {
  import opened WorldTypes

  /** `changeAvatar` (articulated avatars) or `changeObject` (everything else). */
  datatype Mode = AvatarMode | ObjectMode

  datatype Arm = LeftArm | RightArm

  /** The three lazily created interpolation handles of a shared object. */
  datatype AnimSlot = Translate | Rotate | Rescale

  /** The slots `removeMesh` disposes. */
  datatype Resource = VideoResource | AnimResource(slot: AnimSlot) | StreamResource

  /** Everything the world manager asks of its collaborators. */
  datatype Effect =
    | CreateAnimation(slot: AnimSlot, anim: Animation)
    | UpdateAnimation(slot: AnimSlot, anim: Animation, target: Option<Sample>)
    | StartAnimation(animation: Option<string>)
    | ReachFor(arm: Arm, reach: Sample)
    | SetAimQuat(arm: Arm, quat: Sample)
    | SetName(name: Option<string>)
    | TrackHeight(height: real)
    | InvokeOnTarget(targetRef: nat, handler: string)
    | InvokeOnObject(handler: string)
    | NoTarget(field: string)
    | Unhandled(field: string)
    | NotifyChange(field: string, node: Node)
    | RemoveClient
    | UnloadObject
    | Dispose(resource: Resource)
    | AddChangeListener(mode: Mode, listenerNode: Option<Node>)
    | StreamToMesh
    | NoMediaStreams
    | NotifyLoad(representation: nat)
    | TypeError(field: string)   // handling the field read a null record and threw

  datatype Routed = Routed(obj: SharedObject, effects: seq<Effect>)

  function SlotOf(o: SharedObject, s: AnimSlot): Option<Animation> {
    match s
    case Translate => o.translate
    case Rotate => o.rotate
    case Rescale => o.rescale
  }

  function WithSlot(o: SharedObject, s: AnimSlot, a: Animation): (o': SharedObject)
    ensures SlotOf(o', s) == Some(a)
    ensures forall t :: t != s ==> SlotOf(o', t) == SlotOf(o, t)
  {
    match s
    case Translate => o.(translate := Some(a))
    case Rotate => o.(rotate := Some(a))
    case Rescale => o.(rescale := Some(a))
  }

  /** The field whose change drives a slot in the given mode; avatars have no
      scaling handle. */
  function SlotField(mode: Mode, s: AnimSlot): Option<string> {
    match s
    case Translate => Some("position")
    case Rotate => Some("rotation")
    case Rescale => if mode == ObjectMode then Some("scale") else None
  }

  /** Avatars rotate by quaternion, other objects by Euler angles. */
  function SlotKind(mode: Mode, s: AnimSlot): AnimKind {
    match s
    case Translate => PositionAnim
    case Rotate => if mode == AvatarMode then QuaternionAnim else RotationAnim
    case Rescale => ScalingAnim
  }

  /** `field` drives slot `s` in this mode. */
  predicate Drives(mode: Mode, s: AnimSlot, field: string) {
    SlotField(mode, s) == Some(field)
  }

  /** Retargets the slot's handle, creating it on first use. */
  function Animate(o: SharedObject, s: AnimSlot, kind: AnimKind, node: Node, target: Option<Sample>): (r: Routed)
    ensures Notified(r.effects) == []
    ensures forall t :: Creates(r.effects, t) == (if t == s && SlotOf(o, s).None? then 1 else 0)
    ensures SlotOf(o, s).Some? ==> r.obj == o
    ensures SlotOf(o, s).None? ==> r.obj == WithSlot(o, s, Animation(kind, node))
    // the handle in the slot, old or new, is driven to the target
    ensures WithoutCreations(r.effects) == [UpdateAnimation(s, GetOr(SlotOf(o, s), Animation(kind, node)), target)]
    ensures r.effects[|r.effects| - 1] == UpdateAnimation(s, GetOr(SlotOf(o, s), Animation(kind, node)), target)
  {
    match SlotOf(o, s)
    case Some(a) =>
      var u := UpdateAnimation(s, a, target);
      Single(u);
      Routed(o, [u])
    case None =>
      var a := Animation(kind, node);
      var c := CreateAnimation(s, a);
      var u := UpdateAnimation(s, a, target);
      Single(c);
      Single(u);
      NotifiedAppend([c], [u]);
      assert [c] + [u] == [c, u];
      Routed(WithSlot(o, s, a), [c, u])
  }

  /** The object an unknown field is routed to: the loaded avatar or asset
      container, else the video avatar, else the instantiated entries. */
  function RouteTarget(o: SharedObject): (r: Option<Target>)
    ensures r.None? <==> o.container.None? && o.video.None? && o.instantiatedEntries.None?
    ensures o.container.Some? ==> r == o.container
    ensures o.container.None? && o.video.Some? ==> r == o.video
    ensures o.container.None? && o.video.None? ==> r == o.instantiatedEntries
  {
    if o.container.Some? then o.container
    else if o.video.Some? then o.video
    else o.instantiatedEntries
  }

  /** `routeEvent`: call the target's function named after the field, else
      the object's `<field>Changed` function, else ignore the field. */
  function RouteEvent(o: SharedObject, field: string): (r: Effect)
    ensures r.InvokeOnTarget? <==> RouteTarget(o).Some? && field in RouteTarget(o).value.methods
    ensures r.InvokeOnTarget? ==> r == InvokeOnTarget(RouteTarget(o).value.ref, field)
    ensures r.InvokeOnObject? <==>
      RouteTarget(o).Some? && field !in RouteTarget(o).value.methods && field + "Changed" in o.methods
    ensures r.InvokeOnObject? ==> r.handler == field + "Changed"
    ensures r == NoTarget(field) <==> RouteTarget(o).None?
    ensures r.Unhandled? ==> r == Unhandled(field)
  {
    match RouteTarget(o)
    case None => NoTarget(field)
    case Some(t) =>
      if field in t.methods then InvokeOnTarget(t.ref, field)
      else if field + "Changed" in o.methods then InvokeOnObject(field + "Changed")
      else Unhandled(field)
  }

  predicate BuiltIn(mode: Mode, field: string) {
    match mode
    case AvatarMode =>
      field in {"position", "rotation", "animation", "leftArmPos", "rightArmPos",
                "leftArmRot", "rightArmRot", "name", "userHeight"}
    case ObjectMode => field in {"position", "rotation", "scale"}
  }

  /** The arm a field name is about. */
  function NamedArm(field: string): Arm {
    if field in {"leftArmPos", "leftArmRot"} then LeftArm else RightArm
  }

  function Opposite(a: Arm): Arm {
    match a
    case LeftArm => RightArm
    case RightArm => LeftArm
  }

  /** The shared object's position and rotation records of an arm. */
  function ArmPos(p: Pose, a: Arm): Option<Sample> {
    match a
    case LeftArm => p.leftArmPos
    case RightArm => p.rightArmPos
  }

  function ArmRot(p: Pose, a: Arm): Option<Sample> {
    match a
    case LeftArm => p.leftArmRot
    case RightArm => p.rightArmRot
  }

  /** The record the handling of an arm field reads: the named arm's own
      position for an arm position, the opposite arm's rotation for an arm
      rotation. */
  function ArmRecord(p: Pose, field: string): Option<Sample> {
    if field in {"leftArmPos", "rightArmPos"} then ArmPos(p, NamedArm(field))
    else ArmRot(p, Opposite(NamedArm(field)))
  }

  /** Handling `field` on an avatar throws: it is an arm field and the
      record it reads is still null. */
  predicate ArmRecordMissing(o: SharedObject, field: string) {
    field in {"leftArmPos", "rightArmPos", "leftArmRot", "rightArmRot"} && ArmRecord(o.pose, field).None?
  }

  /** `new BABYLON.Vector3(r.x, r.y, r.z)` of an arm record: its coordinates,
      with any `w` left behind. */
  function AsVector(s: Sample): Sample {
    Vec(s.x, s.y, s.z)
  }

  /** `new BABYLON.Quaternion(r.x, r.y, r.z, r.w)` of an arm record: a record
      without `w` passes `undefined`, and the constructor's default 1 applies. */
  function AsQuaternion(s: Sample): Sample {
    Quat(s.x, s.y, s.z, if s.Quat? then s.w else 1.0)
  }

  /** The handling of one built-in avatar field that is not an interpolation.
      Arm data is mirrored: an arm position drives the avatar's opposite
      arm, and an arm rotation sets the named arm's aim from the opposite
      arm's record. The position is passed on as a vector and the rotation
      as a quaternion built from the record's coordinates. Reading the
      coordinates of a null arm record throws. */
  function AvatarEffect(o: SharedObject, field: string): (r: Effect)
    requires field in {"animation", "leftArmPos", "rightArmPos", "leftArmRot", "rightArmRot", "name", "userHeight"}
    ensures field in {"leftArmPos", "rightArmPos"} && ArmPos(o.pose, NamedArm(field)).Some? ==>
      r == ReachFor(Opposite(NamedArm(field)), AsVector(ArmPos(o.pose, NamedArm(field)).value))
    ensures field in {"leftArmRot", "rightArmRot"} && ArmRot(o.pose, Opposite(NamedArm(field))).Some? ==>
      r == SetAimQuat(NamedArm(field), AsQuaternion(ArmRot(o.pose, Opposite(NamedArm(field))).value))
    ensures r.TypeError? <==> ArmRecordMissing(o, field)
    ensures r.TypeError? ==> r.field == field
    ensures field == "animation" ==> r == StartAnimation(o.animation)
    ensures field == "name" ==> r == SetName(o.name)
    ensures field == "userHeight" ==> r == TrackHeight(o.userHeight)
  {
    match field
    case "animation" => StartAnimation(o.animation)
    case "leftArmPos" =>
      if o.pose.leftArmPos.Some? then ReachFor(RightArm, AsVector(o.pose.leftArmPos.value)) else TypeError(field)
    case "rightArmPos" =>
      if o.pose.rightArmPos.Some? then ReachFor(LeftArm, AsVector(o.pose.rightArmPos.value)) else TypeError(field)
    case "leftArmRot" =>
      if o.pose.rightArmRot.Some? then SetAimQuat(LeftArm, AsQuaternion(o.pose.rightArmRot.value)) else TypeError(field)
    case "rightArmRot" =>
      if o.pose.leftArmRot.Some? then SetAimQuat(RightArm, AsQuaternion(o.pose.leftArmRot.value)) else TypeError(field)
    case "name" => SetName(o.name)
    case _ => TrackHeight(o.userHeight)
  }

  /** The target a slot's handle is driven to: the object's current value. */
  function SlotTarget(o: SharedObject, s: AnimSlot): Option<Sample> {
    match s
    case Translate => Some(o.pose.position)
    case Rotate => o.pose.rotation
    case Rescale => o.pose.scale
  }

  function FieldSlot(field: string): AnimSlot
    requires field in {"position", "rotation", "scale"}
  {
    if field == "position" then Translate else if field == "rotation" then Rotate else Rescale
  }

  /** A field drives at most one slot: the one `FieldSlot` names, when it
      is an interpolated field of the mode. */
  lemma DrivenSlot(mode: Mode, field: string)
    ensures field in {"position", "rotation"} || (mode == ObjectMode && field == "scale") ==>
      forall t :: Drives(mode, t, field) <==> t == FieldSlot(field)
    ensures !(field in {"position", "rotation"} || (mode == ObjectMode && field == "scale")) ==>
      forall t :: !Drives(mode, t, field)
  {
  }

  /** The fields reported to the change listeners, in order. */
  function Notified(effects: seq<Effect>): seq<string> {
    if |effects| == 0 then []
    else (if effects[0].NotifyChange? then [effects[0].field] else []) + Notified(effects[1..])
  }

  /** How many handles an effect list creates for a slot. */
  function Creates(effects: seq<Effect>, s: AnimSlot): nat {
    if |effects| == 0 then 0
    else (if effects[0].CreateAnimation? && effects[0].slot == s then 1 else 0) + Creates(effects[1..], s)
  }

  /** The effects other than handle creations, in order. */
  function WithoutCreations(effects: seq<Effect>): seq<Effect> {
    if |effects| == 0 then []
    else (if effects[0].CreateAnimation? then [] else [effects[0]]) + WithoutCreations(effects[1..])
  }

  /** What one field of a batch asks of the representation, judged from the
      object as the batch found it: a position, rotation or scale field
      drives its slot's handle (the one already there, else the one created
      on the node) to the object's current value; an avatar's own field goes
      to the avatar; every other field is routed by name. */
  function Act(mode: Mode, o: SharedObject, field: string, node: Node): Effect {
    if field in {"position", "rotation"} || (mode == ObjectMode && field == "scale") then
      var s := FieldSlot(field);
      UpdateAnimation(s, GetOr(SlotOf(o, s), Animation(SlotKind(mode, s), node)), SlotTarget(o, s))
    else if mode == AvatarMode && BuiltIn(mode, field) then AvatarEffect(o, field)
    else RouteEvent(o, field)
  }

  /** A batch with handle creations left out: every field's action, then its
      report to the change listeners at the node. */
  function Trace(mode: Mode, o: SharedObject, fields: seq<string>, node: Node): seq<Effect>
    decreases |fields|
  {
    if |fields| == 0 then []
    else [Act(mode, o, fields[0], node), NotifyChange(fields[0], node)] + Trace(mode, o, fields[1..], node)
  }

  /** One iteration of the loop over the changed fields, before the change
      listeners are told. */
  function Handle(mode: Mode, o: SharedObject, field: string, node: Node): (r: Routed)
    ensures Notified(r.effects) == []
    ensures forall s :: Creates(r.effects, s) == (if SlotOf(o, s).None? && Drives(mode, s, field) then 1 else 0)
    ensures WithoutCreations(r.effects) == [Act(mode, o, field, node)]
    ensures !BuiltIn(mode, field) ==> r == Routed(o, [RouteEvent(o, field)])
    ensures forall s :: SlotOf(o, s).Some? || !Drives(mode, s, field) ==> SlotOf(r.obj, s) == SlotOf(o, s)
    ensures forall s :: SlotOf(o, s).None? && Drives(mode, s, field) ==>
      SlotOf(r.obj, s) == Some(Animation(SlotKind(mode, s), node))
    ensures r.obj == o.(translate := r.obj.translate, rotate := r.obj.rotate, rescale := r.obj.rescale)
  {
    if field in {"position", "rotation"} || (mode == ObjectMode && field == "scale") then
      var s := FieldSlot(field);
      DrivenSlot(mode, field);
      Animate(o, s, SlotKind(mode, s), node, SlotTarget(o, s))
    else
      var e := if mode == AvatarMode && BuiltIn(mode, field) then AvatarEffect(o, field) else RouteEvent(o, field);
      DrivenSlot(mode, field);
      assert Act(mode, o, field, node) == e;
      Single(e);
      Routed(o, [e])
  }

  /** Position, rotation and scale drive their slot's handle, the old one or
      the one just created on the node, to the object's current value. */
  lemma HandleRetargets(mode: Mode, o: SharedObject, field: string, node: Node)
    ensures var r := Handle(mode, o, field, node);
      && (field == "position" ==>
            r.effects[|r.effects| - 1] == UpdateAnimation(Translate, GetOr(o.translate, Animation(PositionAnim, node)), Some(o.pose.position)))
      && (field == "rotation" ==>
            r.effects[|r.effects| - 1] == UpdateAnimation(Rotate, GetOr(o.rotate, Animation(SlotKind(mode, Rotate), node)), o.pose.rotation))
      && (mode == ObjectMode && field == "scale" ==>
            r.effects[|r.effects| - 1] == UpdateAnimation(Rescale, GetOr(o.rescale, Animation(ScalingAnim, node)), o.pose.scale))
  {
  }

  /** Each of an avatar's own fields makes exactly one call on the avatar and
      changes nothing on the object. */
  lemma HandleAvatarFields(o: SharedObject, field: string, node: Node)
    ensures var r := Handle(AvatarMode, o, field, node);
      && (field == "animation" ==> r == Routed(o, [StartAnimation(o.animation)]))
      && (field == "name" ==> r == Routed(o, [SetName(o.name)]))
      && (field == "userHeight" ==> r == Routed(o, [TrackHeight(o.userHeight)]))
      && (field in {"leftArmPos", "rightArmPos", "leftArmRot", "rightArmRot"} ==> r == Routed(o, [AvatarEffect(o, field)]))
  {
  }

  /** One iteration of the loop: handle the field, then tell the change
      listeners about it. */
  function Step(mode: Mode, o: SharedObject, field: string, node: Node): (r: Routed)
    ensures Notified(r.effects) == [field]
    ensures forall s :: Creates(r.effects, s) == (if SlotOf(o, s).None? && Drives(mode, s, field) then 1 else 0)
    // the field's action comes first and its report ends the iteration
    ensures WithoutCreations(r.effects) == [Act(mode, o, field, node), NotifyChange(field, node)]
    ensures |r.effects| > 0 && r.effects[|r.effects| - 1] == NotifyChange(field, node)
    ensures !BuiltIn(mode, field) ==> r == Routed(o, [RouteEvent(o, field), NotifyChange(field, node)])
    ensures forall s :: SlotOf(o, s).Some? || !Drives(mode, s, field) ==> SlotOf(r.obj, s) == SlotOf(o, s)
    ensures forall s :: SlotOf(o, s).None? && Drives(mode, s, field) ==>
      SlotOf(r.obj, s) == Some(Animation(SlotKind(mode, s), node))
    ensures r.obj == o.(translate := r.obj.translate, rotate := r.obj.rotate, rescale := r.obj.rescale)
  {
    var handled := Handle(mode, o, field, node);
    var n := NotifyChange(field, node);
    NotifiedAppend(handled.effects, [n]);
    Single(n);
    Routed(handled.obj, handled.effects + [n])
  }

  /** What a single effect contributes to the two counts. */
  lemma Single(e: Effect)
    ensures Notified([e]) == if e.NotifyChange? then [e.field] else []
    ensures forall s :: Creates([e], s) == if e.CreateAnimation? && e.slot == s then 1 else 0
    ensures WithoutCreations([e]) == if e.CreateAnimation? then [] else [e]
  {
    assert [e][1..] == [];
  }

  /** Reports, handle creations and the remaining effects of two runs of
      effects put one after the other. */
  lemma NotifiedAppend(a: seq<Effect>, b: seq<Effect>)
    ensures Notified(a + b) == Notified(a) + Notified(b)
    ensures forall s :: Creates(a + b, s) == Creates(a, s) + Creates(b, s)
    ensures WithoutCreations(a + b) == WithoutCreations(a) + WithoutCreations(b)
  {
    ReportsAppend(a, b);
    forall s {
      CreatesAppend(a, b, s);
    }
    WithoutCreationsAppend(a, b);
  }

  lemma {:induction false} ReportsAppend(a: seq<Effect>, b: seq<Effect>)
    ensures Notified(a + b) == Notified(a) + Notified(b)
  {
    if |a| == 0 {
      assert a + b == b;
    } else {
      assert (a + b)[0] == a[0] && (a + b)[1..] == a[1..] + b;
      ReportsAppend(a[1..], b);
    }
  }

  lemma {:induction false} CreatesAppend(a: seq<Effect>, b: seq<Effect>, s: AnimSlot)
    ensures Creates(a + b, s) == Creates(a, s) + Creates(b, s)
  {
    if |a| == 0 {
      assert a + b == b;
    } else {
      assert (a + b)[0] == a[0] && (a + b)[1..] == a[1..] + b;
      CreatesAppend(a[1..], b, s);
    }
  }

  lemma {:induction false} WithoutCreationsAppend(a: seq<Effect>, b: seq<Effect>)
    ensures WithoutCreations(a + b) == WithoutCreations(a) + WithoutCreations(b)
  {
    if |a| == 0 {
      assert a + b == b;
    } else {
      assert (a + b)[0] == a[0] && (a + b)[1..] == a[1..] + b;
      WithoutCreationsAppend(a[1..], b);
    }
  }

  /** What a slot holds after a batch: the existing handle if there was one,
      otherwise a new handle on the node if some field of the batch drives
      the slot, otherwise nothing. */
  function SlotAfter(mode: Mode, o: SharedObject, fields: seq<string>, node: Node, s: AnimSlot): Option<Animation> {
    if SlotOf(o, s).Some? then SlotOf(o, s)
    else if SlotField(mode, s).Some? && SlotField(mode, s).value in fields then Some(Animation(SlotKind(mode, s), node))
    else None
  }

  /** The loop over a batch of changed fields. */
  function Apply(mode: Mode, o: SharedObject, fields: seq<string>, node: Node): (r: Routed)
    // every field is reported exactly once, in order
    ensures Notified(r.effects) == fields
    // a handle is created on first use only, and kept afterwards
    ensures forall s :: SlotOf(r.obj, s) == SlotAfter(mode, o, fields, node, s)
    ensures forall s :: Creates(r.effects, s) == (if SlotOf(o, s).None? && SlotAfter(mode, o, fields, node, s).Some? then 1 else 0)
    // apart from creations, each field's action and report, in order
    ensures WithoutCreations(r.effects) == Trace(mode, o, fields, node)
    // nothing but the handle slots changes on the object
    ensures r.obj == o.(translate := r.obj.translate, rotate := r.obj.rotate, rescale := r.obj.rescale)
    decreases |fields|
  {
    if |fields| == 0 then Routed(o, [])
    else
      var first := Step(mode, o, fields[0], node);
      var rest := Apply(mode, first.obj, fields[1..], node);
      NotifiedAppend(first.effects, rest.effects);
      assert fields == [fields[0]] + fields[1..];
      StepSlots(mode, o, fields[0], fields[1..], node);
      TraceStable(mode, o, first.obj, fields[1..], node);
      Routed(rest.obj, first.effects + rest.effects)
  }

  /** `o'` differs from `o` at most by handles created on the node in slots
      that were empty. */
  predicate Grew(mode: Mode, o: SharedObject, o': SharedObject, node: Node) {
    && o' == o.(translate := o'.translate, rotate := o'.rotate, rescale := o'.rescale)
    && forall s :: SlotOf(o', s) == SlotOf(o, s) || (SlotOf(o, s).None? && SlotOf(o', s) == Some(Animation(SlotKind(mode, s), node)))
  }

  /** A field asks the same of the representation before and after handles
      have been created for the batch. */
  lemma ActStable(mode: Mode, o: SharedObject, o': SharedObject, field: string, node: Node)
    requires Grew(mode, o, o', node)
    ensures Act(mode, o', field, node) == Act(mode, o, field, node)
  {
    assert RouteTarget(o') == RouteTarget(o) && o'.methods == o.methods && o'.pose == o.pose;
    if field in {"position", "rotation"} || (mode == ObjectMode && field == "scale") {
      var s := FieldSlot(field);
      assert GetOr(SlotOf(o', s), Animation(SlotKind(mode, s), node)) == GetOr(SlotOf(o, s), Animation(SlotKind(mode, s), node));
    }
  }

  lemma {:induction false} TraceStable(mode: Mode, o: SharedObject, o': SharedObject, fields: seq<string>, node: Node)
    requires Grew(mode, o, o', node)
    ensures Trace(mode, o', fields, node) == Trace(mode, o, fields, node)
    decreases |fields|
  {
    if |fields| > 0 {
      ActStable(mode, o, o', fields[0], node);
      TraceStable(mode, o, o', fields[1..], node);
    }
  }

  /** How one step composes with the slots the rest of a batch leaves: the
      rest starts from the step's slots, and the step and the rest together
      create a handle exactly when the whole batch does. */
  lemma StepSlots(mode: Mode, o: SharedObject, field: string, rest: seq<string>, node: Node)
    ensures var o' := Step(mode, o, field, node).obj;
            forall s ::
              && SlotAfter(mode, o', rest, node, s) == SlotAfter(mode, o, [field] + rest, node, s)
              && (if SlotOf(o, s).None? && Drives(mode, s, field) then 1 else 0)
                 + (if SlotOf(o', s).None? && SlotAfter(mode, o', rest, node, s).Some? then 1 else 0)
                 == (if SlotOf(o, s).None? && SlotAfter(mode, o, [field] + rest, node, s).Some? then 1 else 0)
  {
    var o' := Step(mode, o, field, node).obj;
    forall s
      ensures SlotAfter(mode, o', rest, node, s) == SlotAfter(mode, o, [field] + rest, node, s)
    {
      if SlotField(mode, s).Some? {
        assert SlotField(mode, s).value in [field] + rest <==> SlotField(mode, s).value == field || SlotField(mode, s).value in rest;
      }
    }
  }

  /** The node an object's changes are applied to when none is given. */
  function GetRootNode(o: SharedObject): (r: Node)
    ensures o.container.Some? ==> r == FirstMesh(o.container.value.ref)
    ensures o.container.None? && o.instantiatedEntries.Some? ==> r == FirstRootNode(o.instantiatedEntries.value.ref)
    ensures r == NoNode <==> o.container.None? && o.instantiatedEntries.None?
  {
    if o.container.Some? then FirstMesh(o.container.value.ref)
    else if o.instantiatedEntries.Some? then FirstRootNode(o.instantiatedEntries.value.ref)
    else NoNode
  }

  /** How many leading fields of a batch `changeAvatar` gets through: its
      loop stops at the first arm field whose record is null. */
  function Handled(o: SharedObject, fields: seq<string>): (k: nat)
    ensures k <= |fields|
    ensures forall i :: 0 <= i < k ==> !ArmRecordMissing(o, fields[i])
    ensures k < |fields| ==> ArmRecordMissing(o, fields[k])
    decreases |fields|
  {
    if |fields| == 0 || ArmRecordMissing(o, fields[0]) then 0
    else
      var k := Handled(o, fields[1..]);
      assert forall i :: 1 <= i < k + 1 ==> fields[i] == fields[1..][i - 1];
      k + 1
  }

  /** `changeAvatar`: changes to a loaded avatar, applied at its parent mesh.
      The source dereferences the avatar for every field, so a non-empty
      batch needs a loaded avatar. An arm field whose record is null throws
      a `TypeError`, which ends the batch: that field is not reported and
      the fields after it are not handled. */
  function ChangeAvatar(o: SharedObject, fields: seq<string>): (r: Routed)
    requires fields != [] ==> o.container.Some?
    // the fields before the first throw are handled and reported in order
    ensures Notified(r.effects) == fields[..Handled(o, fields)]
    ensures forall s ::
      SlotOf(r.obj, s) == SlotAfter(AvatarMode, o, fields[..Handled(o, fields)],
                                    if o.container.Some? then ParentMesh(o.container.value.ref) else NoNode, s)
    ensures r.obj.rescale == o.rescale
    // each handled field's action, then its report at the avatar's parent
    // mesh; then the throw, if there is one, as the last effect
    ensures WithoutCreations(r.effects) ==
      Trace(AvatarMode, o, fields[..Handled(o, fields)], if o.container.Some? then ParentMesh(o.container.value.ref) else NoNode)
      + (if Handled(o, fields) < |fields| then [TypeError(fields[Handled(o, fields)])] else [])
    ensures Handled(o, fields) < |fields| ==> r.effects[|r.effects| - 1] == TypeError(fields[Handled(o, fields)])
    // a batch that reads no null arm record is the whole loop
    ensures (forall i :: 0 <= i < |fields| ==> !ArmRecordMissing(o, fields[i])) ==>
      r == Apply(AvatarMode, o, fields, if o.container.Some? then ParentMesh(o.container.value.ref) else NoNode)
  {
    var node := if o.container.Some? then ParentMesh(o.container.value.ref) else NoNode;
    var k := Handled(o, fields);
    var a := Apply(AvatarMode, o, fields[..k], node);
    assert SlotOf(a.obj, Rescale) == SlotAfter(AvatarMode, o, fields[..k], node, Rescale);
    if k < |fields| then
      NotifiedAppend(a.effects, [TypeError(fields[k])]);
      Single(TypeError(fields[k]));
      Routed(a.obj, a.effects + [TypeError(fields[k])])
    else
      assert fields[..k] == fields;
      a
  }

  /** `changeObject`: changes to any other representation, applied at the
      given node or else at the object's root node. Without either, the
      source reads a property of an undefined node at the first position,
      rotation or scale field and throws, so such a batch needs a root. */
  function ChangeObject(o: SharedObject, fields: seq<string>, node: Option<Node>): (r: Routed)
    requires node.Some? || GetRootNode(o) != NoNode || forall i :: 0 <= i < |fields| ==> !BuiltIn(ObjectMode, fields[i])
    ensures Notified(r.effects) == fields
    ensures forall s ::
      SlotOf(r.obj, s) == SlotAfter(ObjectMode, o, fields, if node.Some? then node.value else GetRootNode(o), s)
    // each field's action, then its report at the node
    ensures WithoutCreations(r.effects) == Trace(ObjectMode, o, fields, if node.Some? then node.value else GetRootNode(o))
    ensures r.obj == o.(translate := r.obj.translate, rotate := r.obj.rotate, rescale := r.obj.rescale)
  {
    Apply(ObjectMode, o, fields, if node.Some? then node.value else GetRootNode(o))
  }

  /** A batch's trace is the traces of its parts, one after the other. */
  lemma {:induction false} TraceAppend(mode: Mode, o: SharedObject, a: seq<string>, b: seq<string>, node: Node)
    ensures Trace(mode, o, a + b, node) == Trace(mode, o, a, node) + Trace(mode, o, b, node)
    decreases |a|
  {
    if |a| == 0 {
      assert a + b == b;
    } else {
      assert (a + b)[0] == a[0] && (a + b)[1..] == a[1..] + b;
      TraceAppend(mode, o, a[1..], b, node);
    }
  }

  /** The loop only fills empty slots, with handles on its node. */
  lemma ApplyGrew(mode: Mode, o: SharedObject, fields: seq<string>, node: Node)
    ensures Grew(mode, o, Apply(mode, o, fields, node).obj, node)
  {
    var r := Apply(mode, o, fields, node);
    forall s
      ensures SlotOf(r.obj, s) == SlotOf(o, s) || (SlotOf(o, s).None? && SlotOf(r.obj, s) == Some(Animation(SlotKind(mode, s), node)))
    {
      assert SlotOf(r.obj, s) == SlotAfter(mode, o, fields, node, s);
    }
  }

  lemma GrewTwice(mode: Mode, o: SharedObject, a: SharedObject, b: SharedObject, node: Node)
    requires Grew(mode, o, a, node) && Grew(mode, a, b, node)
    ensures Grew(mode, o, b, node)
  {
    forall s
      ensures SlotOf(b, s) == SlotOf(o, s) || (SlotOf(o, s).None? && SlotOf(b, s) == Some(Animation(SlotKind(mode, s), node)))
    {
      assert SlotOf(a, s) == SlotOf(o, s) || (SlotOf(o, s).None? && SlotOf(a, s) == Some(Animation(SlotKind(mode, s), node)));
      assert SlotOf(b, s) == SlotOf(a, s) || (SlotOf(a, s).None? && SlotOf(b, s) == Some(Animation(SlotKind(mode, s), node)));
    }
  }

  /** The same loop for an arbitrary per-field step. */
  function Fold(step: (SharedObject, string) -> Routed, o: SharedObject, fields: seq<string>): Routed
    decreases |fields|
  {
    if |fields| == 0 then Routed(o, [])
    else
      var first := step(o, fields[0]);
      var rest := Fold(step, first.obj, fields[1..]);
      Routed(rest.obj, first.effects + rest.effects)
  }

  lemma {:induction false} FoldConcat(step: (SharedObject, string) -> Routed, o: SharedObject, a: seq<string>, b: seq<string>)
    ensures var first := Fold(step, o, a);
            var second := Fold(step, first.obj, b);
            Fold(step, o, a + b) == Routed(second.obj, first.effects + second.effects)
    decreases |a|
  {
    if |a| == 0 {
      assert a + b == b;
    } else {
      var first := step(o, a[0]);
      assert (a + b)[0] == a[0] && (a + b)[1..] == a[1..] + b;
      FoldConcat(step, first.obj, a[1..], b);
      var restA := Fold(step, first.obj, a[1..]);
      var second := Fold(step, restA.obj, b);
      assert first.effects + (restA.effects + second.effects) == (first.effects + restA.effects) + second.effects;
    }
  }

  lemma {:induction false} ApplyIsFold(mode: Mode, o: SharedObject, fields: seq<string>, node: Node)
    ensures Apply(mode, o, fields, node) == Fold((o': SharedObject, f: string) => Step(mode, o', f, node), o, fields)
    decreases |fields|
  {
    if |fields| > 0 {
      ApplyIsFold(mode, Step(mode, o, fields[0], node).obj, fields[1..], node);
    }
  }

  /** Applying two batches one after the other is applying their
      concatenation. */
  lemma ApplyConcat(mode: Mode, o: SharedObject, a: seq<string>, b: seq<string>, node: Node)
    ensures var first := Apply(mode, o, a, node);
            var second := Apply(mode, first.obj, b, node);
            Apply(mode, o, a + b, node) == Routed(second.obj, first.effects + second.effects)
  {
    var first := Apply(mode, o, a, node);
    ApplyIsFold(mode, o, a, node);
    ApplyIsFold(mode, first.obj, b, node);
    ApplyIsFold(mode, o, a + b, node);
    FoldConcat((o': SharedObject, f: string) => Step(mode, o', f, node), o, a, b);
  }

  /** One unfolding of the loop: the first field's step, then the rest. */
  lemma ApplyCons(mode: Mode, o: SharedObject, fields: seq<string>, node: Node)
    requires |fields| > 0
    ensures var step := Step(mode, o, fields[0], node);
            var rest := Apply(mode, step.obj, fields[1..], node);
            Apply(mode, o, fields, node) == Routed(rest.obj, step.effects + rest.effects)
  {
  }

  /** A batch of one field is one iteration of the loop. */
  lemma ApplyOne(mode: Mode, o: SharedObject, field: string, node: Node)
    ensures Apply(mode, o, [field], node) == Step(mode, o, field, node)
  {
    ApplyCons(mode, o, [field], node);
    assert [field][1..] == [];
    var step := Step(mode, o, field, node);
    assert step.effects + [] == step.effects;
  }

  /** Once a batch has moved an object, later position changes retarget the
      same handle and create none. */
  lemma HandleReused(mode: Mode, o: SharedObject, a: seq<string>, b: seq<string>, node: Node)
    requires "position" in a
    ensures var first := Apply(mode, o, a, node);
            var second := Apply(mode, first.obj, b, node);
            && Creates(second.effects, Translate) == 0
            && second.obj.translate == first.obj.translate
            && first.obj.translate.Some?
  {
    var first := Apply(mode, o, a, node);
    var second := Apply(mode, first.obj, b, node);
    assert SlotOf(first.obj, Translate) == SlotAfter(mode, o, a, node, Translate);
    assert SlotOf(second.obj, Translate) == SlotAfter(mode, first.obj, b, node, Translate);
  }

  /** The mirrored arm mapping of `changeAvatar`. */
  lemma ArmsAreMirrored(o: SharedObject)
    requires o.container.Some?
    ensures var node := ParentMesh(o.container.value.ref);
            && (o.pose.leftArmPos.Some? ==>
                  ChangeAvatar(o, ["leftArmPos"]).effects == [ReachFor(RightArm, AsVector(o.pose.leftArmPos.value)), NotifyChange("leftArmPos", node)])
            && (o.pose.rightArmPos.Some? ==>
                  ChangeAvatar(o, ["rightArmPos"]).effects == [ReachFor(LeftArm, AsVector(o.pose.rightArmPos.value)), NotifyChange("rightArmPos", node)])
            && (o.pose.rightArmRot.Some? ==>
                  ChangeAvatar(o, ["leftArmRot"]).effects == [SetAimQuat(LeftArm, AsQuaternion(o.pose.rightArmRot.value)), NotifyChange("leftArmRot", node)])
            && (o.pose.leftArmRot.Some? ==>
                  ChangeAvatar(o, ["rightArmRot"]).effects == [SetAimQuat(RightArm, AsQuaternion(o.pose.leftArmRot.value)), NotifyChange("rightArmRot", node)])
  {
    ArmRecords(o.pose);
    if o.pose.leftArmPos.Some? {
      AvatarFieldHandled(o, "leftArmPos");
    }
    if o.pose.rightArmPos.Some? {
      AvatarFieldHandled(o, "rightArmPos");
    }
    if o.pose.rightArmRot.Some? {
      AvatarFieldHandled(o, "leftArmRot");
    }
    if o.pose.leftArmRot.Some? {
      AvatarFieldHandled(o, "rightArmRot");
    }
  }

  /** An arm change whose record is still null throws before anything is
      done or reported; for an arm rotation that record is the other arm's. */
  lemma NullArmRecordThrows(o: SharedObject)
    requires o.container.Some?
    ensures o.pose.leftArmPos.None? ==> ChangeAvatar(o, ["leftArmPos"]) == Routed(o, [TypeError("leftArmPos")])
    ensures o.pose.rightArmPos.None? ==> ChangeAvatar(o, ["rightArmPos"]) == Routed(o, [TypeError("rightArmPos")])
    ensures o.pose.rightArmRot.None? ==> ChangeAvatar(o, ["leftArmRot"]) == Routed(o, [TypeError("leftArmRot")])
    ensures o.pose.leftArmRot.None? ==> ChangeAvatar(o, ["rightArmRot"]) == Routed(o, [TypeError("rightArmRot")])
  {
    ArmRecords(o.pose);
    if o.pose.leftArmPos.None? {
      AvatarFieldThrows(o, "leftArmPos");
    }
    if o.pose.rightArmPos.None? {
      AvatarFieldThrows(o, "rightArmPos");
    }
    if o.pose.rightArmRot.None? {
      AvatarFieldThrows(o, "leftArmRot");
    }
    if o.pose.leftArmRot.None? {
      AvatarFieldThrows(o, "rightArmRot");
    }
  }

  /** The record each arm field reads. */
  lemma ArmRecords(p: Pose)
    ensures ArmRecord(p, "leftArmPos") == p.leftArmPos && ArmRecord(p, "rightArmPos") == p.rightArmPos
    ensures ArmRecord(p, "leftArmRot") == p.rightArmRot && ArmRecord(p, "rightArmRot") == p.leftArmRot
  {
  }

  /** A batch of one avatar field is that field's call, then its report, or
      only the throw when the arm record it reads is null. */
  lemma OneAvatarField(o: SharedObject, field: string)
    requires o.container.Some?
    requires field in {"animation", "leftArmPos", "rightArmPos", "leftArmRot", "rightArmRot", "name", "userHeight"}
    ensures !ArmRecordMissing(o, field) ==>
      ChangeAvatar(o, [field]).effects == [AvatarEffect(o, field), NotifyChange(field, ParentMesh(o.container.value.ref))]
    ensures ArmRecordMissing(o, field) ==> ChangeAvatar(o, [field]) == Routed(o, [TypeError(field)])
  {
    if ArmRecordMissing(o, field) {
      AvatarFieldThrows(o, field);
    } else {
      AvatarFieldHandled(o, field);
    }
  }

  lemma AvatarFieldHandled(o: SharedObject, field: string)
    requires o.container.Some?
    requires field in {"animation", "leftArmPos", "rightArmPos", "leftArmRot", "rightArmRot", "name", "userHeight"}
    requires !ArmRecordMissing(o, field)
    ensures ChangeAvatar(o, [field]).effects == [AvatarEffect(o, field), NotifyChange(field, ParentMesh(o.container.value.ref))]
  {
    var node := ParentMesh(o.container.value.ref);
    NothingThrows(o, [field]);
    ApplyOne(AvatarMode, o, field, node);
    HandleAvatarFields(o, field, node);
  }

  /** A batch in which no arm record is null is the whole loop. */
  lemma NothingThrows(o: SharedObject, fields: seq<string>)
    requires fields != [] ==> o.container.Some?
    requires forall i :: 0 <= i < |fields| ==> !ArmRecordMissing(o, fields[i])
    ensures Handled(o, fields) == |fields|
    ensures ChangeAvatar(o, fields) == Apply(AvatarMode, o, fields, if o.container.Some? then ParentMesh(o.container.value.ref) else NoNode)
  {
  }

  lemma AvatarFieldThrows(o: SharedObject, field: string)
    requires o.container.Some?
    requires ArmRecordMissing(o, field)
    ensures ChangeAvatar(o, [field]) == Routed(o, [TypeError(field)])
  {
    assert Handled(o, [field]) == 0;
    assert [field][..0] == [];
  }

  /** A throw ends the batch: what was handled before it stays done, and
      nothing after it is handled. */
  lemma ThrowEndsBatch(o: SharedObject, done: seq<string>, field: string, rest: seq<string>)
    requires o.container.Some?
    requires forall i :: 0 <= i < |done| ==> !ArmRecordMissing(o, done[i])
    requires ArmRecordMissing(o, field)
    ensures var before := Apply(AvatarMode, o, done, ParentMesh(o.container.value.ref));
            ChangeAvatar(o, done + [field] + rest) == Routed(before.obj, before.effects + [TypeError(field)])
  {
    var fields := done + [field] + rest;
    HandledStops(o, done, field, rest);
    assert fields[..|done|] == done;
    assert fields[|done|] == field;
  }

  lemma {:induction false} HandledStops(o: SharedObject, done: seq<string>, field: string, rest: seq<string>)
    requires forall i :: 0 <= i < |done| ==> !ArmRecordMissing(o, done[i])
    requires ArmRecordMissing(o, field)
    ensures Handled(o, done + [field] + rest) == |done|
    decreases |done|
  {
    var fields := done + [field] + rest;
    if |done| == 0 {
      assert fields[0] == field;
    } else {
      assert fields[0] == done[0];
      assert fields[1..] == done[1..] + [field] + rest;
      HandledStops(o, done[1..], field, rest);
    }
  }

  /** An unknown field is routed, reported, and changes nothing on the object;
      a field nobody handles is ignored and the batch goes on. */
  lemma UnknownFieldTolerated(mode: Mode, o: SharedObject, field: string, rest: seq<string>, node: Node)
    requires !BuiltIn(mode, field)
    ensures var r := Apply(mode, o, [field] + rest, node);
            var tail := Apply(mode, o, rest, node);
            r == Routed(tail.obj, [RouteEvent(o, field), NotifyChange(field, node)] + tail.effects)
  {
    assert ([field] + rest)[1..] == rest;
  }
}

=== FILE: change_tracker.dfy ===
/** The outbound change tracker of the world manager: on every tick it samples
    the local pose (a tracked mesh in third-person view, or the camera plus
    optional VR controllers in first-person view), compares each tracked
    quantity with the last published one using a tolerance, and publishes the
    changed quantities as one batch. */
module ChangeTracker {
  import opened WorldTypes

  /** Movement resolution: 1 cm, or 3.6 degrees for rotations. */
  const DefaultResolution: real := 0.01
  /** Real-world user height before a VR helper reports one. */
  const DefaultUserHeight: real := 1.8

  /** A last-published x/y/z record. Every component starts as JavaScript
      `null`; the arm rotation records also carry a `w` that is never compared
      or written. */
  datatype Tracked = Tracked(x: Option<real>, y: Option<real>, z: Option<real>, w: Option<real>)

  const Unset: Tracked := Tracked(None, None, None, None)

  /** JavaScript's numeric coercion of a tracked component: in `null - r` and
      `null + r` a null behaves as 0. */
  function Num(v: Option<real>): real {
    match v
    case None => 0.0
    case Some(n) => n
  }

  function Abs(d: real): real {
    if d < 0.0 then -d else d
  }

  /** `val` lies in the closed interval [prev - range, prev + range]. */
  predicate Near(prev: real, val: real, range: real) {
    Abs(val - prev) <= range
  }

  /** A value has changed when it lies strictly outside the tolerance
      interval; a value exactly at prev +/- range is no change. */
  function IsChanged(prev: real, val: real, range: real): (r: bool)
    ensures r <==> !Near(prev, val, range)
  {
    val < prev - range || val > prev + range
  }

  /** All three components of a sample are within tolerance of the record. */
  predicate NearRecord(rec: Tracked, pos: Sample, range: real) {
    && Near(Num(rec.x), pos.x, range)
    && Near(Num(rec.y), pos.y, range)
    && Near(Num(rec.z), pos.z, range)
  }

  datatype ChangeValue = SampleValue(sample: Sample) | HeightValue(height: real)

  /** One `{field, value}` entry of an outbound batch. */
  datatype Change = Change(field: string, value: ChangeValue)

  datatype Checked = Checked(rec: Tracked, changes: seq<Change>)

  /** The entry a quantity contributes to a batch: none when the sample is
      within tolerance of the record, else one entry with the field's name
      and the sample. */
  function Entry(field: string, rec: Tracked, pos: Sample, range: real): seq<Change> {
    if NearRecord(rec, pos, range) then [] else [Change(field, SampleValue(pos))]
  }

  /** The record afterwards: the sample's x, y and z when it moved. */
  function Settle(rec: Tracked, pos: Sample, range: real): Tracked {
    if NearRecord(rec, pos, range) then rec else Tracked(Some(pos.x), Some(pos.y), Some(pos.z), rec.w)
  }

  /** The same for a quantity that is sampled only when `on` holds. */
  function EntryIf(on: bool, field: string, rec: Tracked, pos: Sample, range: real): seq<Change> {
    if on then Entry(field, rec, pos, range) else []
  }

  function SettleIf(on: bool, rec: Tracked, pos: Sample, range: real): Tracked {
    if on then Settle(rec, pos, range) else rec
  }

  /** Compares one tracked quantity. On a change the record's x, y and z are
      overwritten together and exactly one entry is appended; otherwise
      neither the record nor the batch changes. */
  function CheckChange(field: string, rec: Tracked, pos: Sample, range: real, changes: seq<Change>): (r: Checked)
    ensures NearRecord(rec, pos, range) ==> r == Checked(rec, changes)
    ensures !NearRecord(rec, pos, range) ==>
      && r.rec == Tracked(Some(pos.x), Some(pos.y), Some(pos.z), rec.w)
      && r.changes == changes + [Change(field, SampleValue(pos))]
    ensures r == Checked(Settle(rec, pos, range), changes + Entry(field, rec, pos, range))
  {
    if IsChanged(Num(rec.x), pos.x, range)
      || IsChanged(Num(rec.y), pos.y, range)
      || IsChanged(Num(rec.z), pos.z, range)
    then
      Checked(rec.(x := Some(pos.x), y := Some(pos.y), z := Some(pos.z)), changes + [Change(field, SampleValue(pos))])
    else
      Checked(rec, changes)
  }

  /** A quantity that the current mode does not sample stays as it is. */
  function CheckIf(sampled: bool, field: string, rec: Tracked, pos: Sample, range: real, changes: seq<Change>): (r: Checked)
    ensures r.changes == changes || r.changes == changes + [Change(field, SampleValue(pos))]
    ensures r.changes == changes <==> !sampled || NearRecord(rec, pos, range)
    ensures r == Checked(SettleIf(sampled, rec, pos, range), changes + EntryIf(sampled, field, rec, pos, range))
  {
    if sampled then CheckChange(field, rec, pos, range, changes) else Checked(rec, changes)
  }

  /** The world manager's last published local state. */
  datatype TrackerState = TrackerState(
    pos: Tracked,
    rot: Tracked,
    leftArmPos: Tracked,
    rightArmPos: Tracked,
    leftArmRot: Tracked,
    rightArmRot: Tracked,
    userHeight: real)

  const Initial: TrackerState :=
    TrackerState(Unset, Unset, Unset, Unset, Unset, Unset, DefaultUserHeight)

  datatype Config = Config(resolution: real, trackRotation: bool)

  /** A tracked mesh (third-person view); `ellipsoidY` is its collision
      ellipsoid's y radius, when it has one. */
  datatype MeshPose = MeshPose(position: Sample, ellipsoidY: Option<real>, rotation: Sample)

  /** The active camera (first-person view). `xrEuler` is its rotation
      quaternion converted to Euler angles, used for a WebXR camera. */
  datatype CameraPose = CameraPose(
    globalPosition: Sample,
    ellipsoidY: Option<real>,
    ellipsoidOffsetY: Option<real>,
    rotation: Sample,
    isWebXR: bool,
    xrEuler: Sample)

  /** What the VR helper reports: which controllers exist, the arm poses and
      the real-world height. */
  datatype VrPose = VrPose(
    leftController: bool,
    rightController: bool,
    leftArmPos: Sample,
    leftArmRot: Sample,
    rightArmPos: Sample,
    rightArmRot: Sample,
    realWorldHeight: real)

  /** Everything one tick reads from the scene. */
  datatype Frame = Frame(mesh: Option<MeshPose>, camera: Option<CameraPose>, vrHelper: Option<VrPose>)

  /** Outbound effects of a tick: the network publication and the
      notification of each registered "my change" listener. */
  datatype Effect = SendMyChanges(batch: seq<Change>) | NotifyMyChange(listener: nat, batch: seq<Change>)

  datatype Tick = Tick(state: TrackerState, batch: seq<Change>, effects: seq<Effect>)

  /** Mesh position, lowered by the collision ellipsoid when there is one. */
  function MeshPosition(m: MeshPose): (r: Sample)
    ensures r.x == m.position.x && r.z == m.position.z
    ensures r.y == m.position.y - GetOr(m.ellipsoidY, 0.0)
    ensures m.ellipsoidY.None? ==> r == m.position
  {
    match m.ellipsoidY
    case None => m.position
    case Some(ey) => Vec(m.position.x, m.position.y - ey, m.position.z)
  }

  /** Camera position, with the height taken at the feet of the collision
      ellipsoid (plus its offset) when the camera has one. */
  function CameraPosition(c: CameraPose): (r: Sample)
    ensures r.x == c.globalPosition.x && r.z == c.globalPosition.z
    ensures c.ellipsoidY.None? ==> r == c.globalPosition
    ensures c.ellipsoidY.Some? ==> r.y == c.globalPosition.y - 2.0 * c.ellipsoidY.value + GetOr(c.ellipsoidOffsetY, 0.0)
  {
    match c.ellipsoidY
    case None => c.globalPosition
    case Some(ey) =>
      var offset := match c.ellipsoidOffsetY case None => 0.0 case Some(o) => o;
      Vec(c.globalPosition.x, c.globalPosition.y - ey * 2.0 + offset, c.globalPosition.z)
  }

  /** A WebXR camera's rotation is read from its quaternion as Euler angles;
      any other camera's rotation is used as it is. */
  function CameraRotation(c: CameraPose): (r: Sample)
    ensures c.isWebXR ==> r == c.xrEuler
    ensures !c.isWebXR ==> r == c.rotation
  {
    if c.isWebXR then c.xrEuler else c.rotation
  }

  /** `listeners.forEach(listener => listener(batch))`. */
  function NotifyAll(listeners: seq<nat>, batch: seq<Change>): (r: seq<Effect>)
    ensures |r| == |listeners|
    ensures forall i :: 0 <= i < |r| ==> r[i] == NotifyMyChange(listeners[i], batch)
  {
    seq(|listeners|, i requires 0 <= i < |listeners| => NotifyMyChange(listeners[i], batch))
  }

  /** Publishes a batch only when it is non-empty. */
  function Publish(state: TrackerState, batch: seq<Change>, listeners: seq<nat>): (r: Tick)
    ensures r.state == state && r.batch == batch
    ensures r.effects == [] <==> batch == []
    ensures batch != [] ==> r.effects[0] == SendMyChanges(batch) && r.effects[1..] == NotifyAll(listeners, batch)
  {
    if |batch| > 0 then Tick(state, batch, [SendMyChanges(batch)] + NotifyAll(listeners, batch))
    else Tick(state, batch, [])
  }

  /** Independent statement of a VR helper sample that changes nothing: each
      controller the helper has is within tolerance on both its records, and
      so is the real-world height. */
  predicate QuietVr(st: TrackerState, res: real, vr: VrPose) {
    && (vr.leftController ==>
          NearRecord(st.leftArmPos, vr.leftArmPos, res) && NearRecord(st.leftArmRot, vr.leftArmRot, res))
    && (vr.rightController ==>
          NearRecord(st.rightArmPos, vr.rightArmPos, res) && NearRecord(st.rightArmRot, vr.rightArmRot, res))
    && Near(st.userHeight, vr.realWorldHeight, res)
  }

  /** Independent statement of a tick that finds nothing to publish: every
      quantity the mode samples is within tolerance of its record. */
  predicate Quiet(st: TrackerState, cfg: Config, frame: Frame) {
    var res := cfg.resolution;
    if frame.mesh.Some? then
      && NearRecord(st.pos, MeshPosition(frame.mesh.value), res)
      && NearRecord(st.rot, frame.mesh.value.rotation, res)
    else if frame.camera.None? then
      true
    else
      var cam := frame.camera.value;
      && NearRecord(st.pos, CameraPosition(cam), res)
      && (cfg.trackRotation ==> NearRecord(st.rot, CameraRotation(cam), res))
      && (frame.vrHelper.Some? ==> QuietVr(st, res, frame.vrHelper.value))
  }

  /** The arm records and the user height are left as they were. */
  predicate VrUntouched(st: TrackerState, st': TrackerState) {
    && st'.leftArmPos == st.leftArmPos && st'.leftArmRot == st.leftArmRot
    && st'.rightArmPos == st.rightArmPos && st'.rightArmRot == st.rightArmRot
    && st'.userHeight == st.userHeight
  }

  predicate NoField(batch: seq<Change>, field: string) {
    forall i :: 0 <= i < |batch| ==> batch[i].field != field
  }

  /** A state together with the batch collected so far. */
  datatype Sampled = Sampled(state: TrackerState, batch: seq<Change>)

  /** The real-world height entry: none within tolerance, else the new
      height under "userHeight". */
  function HeightEntry(prev: real, height: real, range: real): seq<Change> {
    if Near(prev, height, range) then [] else [Change("userHeight", HeightValue(height))]
  }

  /** One controller's entries: its position, then its rotation, each under
      its own name, when the controller exists. */
  function ArmEntries(on: bool, posField: string, rotField: string, posRec: Tracked, rotRec: Tracked,
                      pos: Sample, rot: Sample, res: real): seq<Change> {
    EntryIf(on, posField, posRec, pos, res) + EntryIf(on, rotField, rotRec, rot, res)
  }

  /** Reference statement of the VR helper's part of a tick, every quantity
      judged against the state as the tick found it: the left controller,
      the right controller, then the height. */
  function VrReference(st: TrackerState, res: real, vr: VrPose): Sampled {
    Sampled(
      st.(leftArmPos := SettleIf(vr.leftController, st.leftArmPos, vr.leftArmPos, res),
          leftArmRot := SettleIf(vr.leftController, st.leftArmRot, vr.leftArmRot, res),
          rightArmPos := SettleIf(vr.rightController, st.rightArmPos, vr.rightArmPos, res),
          rightArmRot := SettleIf(vr.rightController, st.rightArmRot, vr.rightArmRot, res),
          userHeight := if Near(st.userHeight, vr.realWorldHeight, res) then st.userHeight else vr.realWorldHeight),
      ArmEntries(vr.leftController, "leftArmPos", "leftArmRot", st.leftArmPos, st.leftArmRot, vr.leftArmPos, vr.leftArmRot, res)
      + ArmEntries(vr.rightController, "rightArmPos", "rightArmRot", st.rightArmPos, st.rightArmRot, vr.rightArmPos, vr.rightArmRot, res)
      + HeightEntry(st.userHeight, vr.realWorldHeight, res))
  }

  /** Reference statement of a tick: the quantities the view samples, each
      judged against the state as the tick found it, in the order position,
      rotation, arms, height. */
  function Reference(st: TrackerState, cfg: Config, frame: Frame): Sampled {
    var res := cfg.resolution;
    if frame.mesh.Some? then
      var m := frame.mesh.value;
      Sampled(st.(pos := Settle(st.pos, MeshPosition(m), res), rot := Settle(st.rot, m.rotation, res)),
              Entry("position", st.pos, MeshPosition(m), res) + Entry("rotation", st.rot, m.rotation, res))
    else if frame.camera.None? then
      Sampled(st, [])
    else
      var cam := frame.camera.value;
      var st1 := st.(pos := Settle(st.pos, CameraPosition(cam), res),
                     rot := SettleIf(cfg.trackRotation, st.rot, CameraRotation(cam), res));
      var b1 := Entry("position", st.pos, CameraPosition(cam), res)
                + EntryIf(cfg.trackRotation, "rotation", st.rot, CameraRotation(cam), res);
      match frame.vrHelper
      case None => Sampled(st1, b1)
      case Some(vr) =>
        var v := VrReference(st1, res, vr);
        Sampled(v.state, b1 + v.batch)
  }

  /** The two records of one controller after a tick. */
  datatype ArmSample = ArmSample(pos: Tracked, rot: Tracked, changes: seq<Change>)

  /** One controller's block: when the controller exists, its position and
      then its rotation are checked under their own field names. */
  function SampleArm(on: bool, posField: string, rotField: string, posRec: Tracked, rotRec: Tracked,
                     pos: Sample, rot: Sample, res: real, changes: seq<Change>): (r: ArmSample)
    ensures |r.changes| >= |changes| && r.changes[..|changes|] == changes
    ensures |r.changes| == |changes| <==> !on || (NearRecord(posRec, pos, res) && NearRecord(rotRec, rot, res))
    ensures forall i :: |changes| <= i < |r.changes| ==> r.changes[i].field == posField || r.changes[i].field == rotField
    ensures !on ==> r.pos == posRec && r.rot == rotRec
    // position before rotation, each under its own name
    ensures r.changes == changes + ArmEntries(on, posField, rotField, posRec, rotRec, pos, rot, res)
    ensures r.pos == SettleIf(on, posRec, pos, res) && r.rot == SettleIf(on, rotRec, rot, res)
  {
    var p := CheckIf(on, posField, posRec, pos, res, changes);
    var q := CheckIf(on, rotField, rotRec, rot, res, p.changes);
    assert q.changes == changes + ArmEntries(on, posField, rotField, posRec, rotRec, pos, rot, res);
    ArmSample(p.rec, q.rec, q.changes)
  }

  /** Entries for two other fields keep a batch free of `other`. */
  lemma NoFieldExtended(a: seq<Change>, b: seq<Change>, f1: string, f2: string, other: string)
    requires NoField(a, other) && f1 != other && f2 != other
    requires |b| >= |a| && b[..|a|] == a
    requires forall i :: |a| <= i < |b| ==> b[i].field == f1 || b[i].field == f2
    ensures NoField(b, other)
  {
    forall i | 0 <= i < |a|
      ensures b[i].field != other
    {
      assert b[i] == b[..|a|][i];
    }
  }

  /** The controller and height part of a first-person tick, appending to the
      batch collected from the camera. */
  function SampleVr(st: TrackerState, res: real, vr: VrPose, changes: seq<Change>): (r: Sampled)
    ensures |r.batch| >= |changes| && r.batch[..|changes|] == changes
    ensures |r.batch| == |changes| <==> QuietVr(st, res, vr)
    ensures NoField(changes, "rotation") ==> NoField(r.batch, "rotation")
    ensures r.state.pos == st.pos && r.state.rot == st.rot
    ensures !vr.leftController ==> r.state.leftArmPos == st.leftArmPos && r.state.leftArmRot == st.leftArmRot
    ensures !vr.rightController ==> r.state.rightArmPos == st.rightArmPos && r.state.rightArmRot == st.rightArmRot
    ensures r == Sampled(VrReference(st, res, vr).state, changes + VrReference(st, res, vr).batch)
  {
    var left := SampleArm(vr.leftController, "leftArmPos", "leftArmRot", st.leftArmPos, st.leftArmRot,
                          vr.leftArmPos, vr.leftArmRot, res, changes);
    var right := SampleArm(vr.rightController, "rightArmPos", "rightArmRot", st.rightArmPos, st.rightArmRot,
                           vr.rightArmPos, vr.rightArmRot, res, left.changes);
    // the height is compared with the same tolerance as the coordinates
    var heightChanged := IsChanged(st.userHeight, vr.realWorldHeight, res);
    var height := if heightChanged then vr.realWorldHeight else st.userHeight;
    var batch := if heightChanged then right.changes + [Change("userHeight", HeightValue(height))] else right.changes;
    var la := ArmEntries(vr.leftController, "leftArmPos", "leftArmRot", st.leftArmPos, st.leftArmRot, vr.leftArmPos, vr.leftArmRot, res);
    var ra := ArmEntries(vr.rightController, "rightArmPos", "rightArmRot", st.rightArmPos, st.rightArmRot, vr.rightArmPos, vr.rightArmRot, res);
    var h := HeightEntry(st.userHeight, vr.realWorldHeight, res);
    assert batch == right.changes + h;
    Assoc3(changes, la, ra, h);
    VrReferenceFacts(st, res, vr, changes);
    Sampled(st.(leftArmPos := left.pos, leftArmRot := left.rot, rightArmPos := right.pos, rightArmRot := right.rot, userHeight := height), batch)
  }

  lemma Assoc3(a: seq<Change>, b: seq<Change>, c: seq<Change>, d: seq<Change>)
    ensures a + b + c + d == a + (b + c + d)
  {
  }

  lemma NoFieldAppend(a: seq<Change>, b: seq<Change>, f: string)
    requires NoField(a, f) && NoField(b, f)
    ensures NoField(a + b, f)
  {
    forall i | 0 <= i < |a + b|
      ensures (a + b)[i].field != f
    {
      if i >= |a| {
        assert (a + b)[i] == b[i - |a|];
      }
    }
  }

  lemma EntryShape(on: bool, field: string, rec: Tracked, pos: Sample, res: real, other: string)
    requires field != other
    ensures NoField(EntryIf(on, field, rec, pos, res), other)
  {
  }

  /** A controller's entries are empty exactly when it is absent or both of
      its records are within tolerance, and name only its own fields. */
  lemma ArmEntriesShape(on: bool, posField: string, rotField: string, posRec: Tracked, rotRec: Tracked,
                        pos: Sample, rot: Sample, res: real, other: string)
    requires posField != other && rotField != other
    ensures var e := ArmEntries(on, posField, rotField, posRec, rotRec, pos, rot, res);
      && (e == [] <==> !on || (NearRecord(posRec, pos, res) && NearRecord(rotRec, rot, res)))
      && NoField(e, other)
  {
    EntryShape(on, posField, posRec, pos, res, other);
    EntryShape(on, rotField, rotRec, rot, res, other);
    NoFieldAppend(EntryIf(on, posField, posRec, pos, res), EntryIf(on, rotField, rotRec, rot, res), other);
  }

  /** The VR part of a batch appends to what was collected, is empty exactly
      when the helper's sample is quiet, and holds no rotation entry. */
  lemma VrReferenceFacts(st: TrackerState, res: real, vr: VrPose, changes: seq<Change>)
    ensures var b := changes + VrReference(st, res, vr).batch;
      && |b| >= |changes| && b[..|changes|] == changes
      && (|b| == |changes| <==> QuietVr(st, res, vr))
      && (NoField(changes, "rotation") ==> NoField(b, "rotation"))
  {
    var la := ArmEntries(vr.leftController, "leftArmPos", "leftArmRot", st.leftArmPos, st.leftArmRot, vr.leftArmPos, vr.leftArmRot, res);
    var ra := ArmEntries(vr.rightController, "rightArmPos", "rightArmRot", st.rightArmPos, st.rightArmRot, vr.rightArmPos, vr.rightArmRot, res);
    var h := HeightEntry(st.userHeight, vr.realWorldHeight, res);
    ArmEntriesShape(vr.leftController, "leftArmPos", "leftArmRot", st.leftArmPos, st.leftArmRot, vr.leftArmPos, vr.leftArmRot, res, "rotation");
    ArmEntriesShape(vr.rightController, "rightArmPos", "rightArmRot", st.rightArmPos, st.rightArmRot, vr.rightArmPos, vr.rightArmRot, res, "rotation");
    assert NoField(h, "rotation");
    NoFieldAppend(la, ra, "rotation");
    NoFieldAppend(la + ra, h, "rotation");
    var b := changes + (la + ra + h);
    assert b[..|changes|] == changes;
    if NoField(changes, "rotation") {
      NoFieldAppend(changes, la + ra + h, "rotation");
    }
  }

  /** Third-person view: position (lowered by the ellipsoid) and rotation of
      the tracked mesh; rotation is checked whatever `trackRotation` says. */
  function SampleMesh(st: TrackerState, res: real, m: MeshPose): (r: Sampled)
    ensures r.batch == [] <==> NearRecord(st.pos, MeshPosition(m), res) && NearRecord(st.rot, m.rotation, res)
    ensures VrUntouched(st, r.state)
    ensures r == Reference(st, Config(res, true), Frame(Some(m), None, None))
  {
    var p := CheckChange("position", st.pos, MeshPosition(m), res, []);
    var q := CheckChange("rotation", st.rot, m.rotation, res, p.changes);
    Sampled(st.(pos := p.rec, rot := q.rec), q.changes)
  }

  /** First-person view: camera position, camera rotation when rotation is
      tracked, then the VR helper when there is one. */
  function SampleCamera(st: TrackerState, cfg: Config, cam: CameraPose, vrHelper: Option<VrPose>): (r: Sampled)
    ensures r.batch == [] <==> Quiet(st, cfg, Frame(None, Some(cam), vrHelper))
    ensures !cfg.trackRotation ==> r.state.rot == st.rot && NoField(r.batch, "rotation")
    ensures vrHelper.None? ==> VrUntouched(st, r.state)
    ensures vrHelper.Some? && !vrHelper.value.leftController ==>
      r.state.leftArmPos == st.leftArmPos && r.state.leftArmRot == st.leftArmRot
    ensures vrHelper.Some? && !vrHelper.value.rightController ==>
      r.state.rightArmPos == st.rightArmPos && r.state.rightArmRot == st.rightArmRot
    ensures r == Reference(st, cfg, Frame(None, Some(cam), vrHelper))
  {
    CameraReferenceFacts(st, cfg, cam, vrHelper);
    var res := cfg.resolution;
    var p := CheckChange("position", st.pos, CameraPosition(cam), res, []);
    var q := CheckIf(cfg.trackRotation, "rotation", st.rot, CameraRotation(cam), res, p.changes);
    var st1 := st.(pos := p.rec, rot := q.rec);
    var b1 := Entry("position", st.pos, CameraPosition(cam), res)
              + EntryIf(cfg.trackRotation, "rotation", st.rot, CameraRotation(cam), res);
    assert q.changes == b1 by {
      assert p.changes == Entry("position", st.pos, CameraPosition(cam), res);
    }
    assert st1 == st.(pos := Settle(st.pos, CameraPosition(cam), res),
                      rot := SettleIf(cfg.trackRotation, st.rot, CameraRotation(cam), res));
    match vrHelper
    case None => Sampled(st1, q.changes)
    case Some(vr) => SampleVr(st1, res, vr, q.changes)
  }

  /** The first-person reference tick is empty exactly when the tick is
      quiet, names rotation only when rotation is tracked, and touches a
      controller's records only when the controller exists. */
  lemma CameraReferenceFacts(st: TrackerState, cfg: Config, cam: CameraPose, vrHelper: Option<VrPose>)
    ensures var f := Frame(None, Some(cam), vrHelper);
      && (Reference(st, cfg, f).batch == [] <==> Quiet(st, cfg, f))
      && (!cfg.trackRotation ==>
            Reference(st, cfg, f).state.rot == st.rot && NoField(Reference(st, cfg, f).batch, "rotation"))
      && (vrHelper.None? ==> VrUntouched(st, Reference(st, cfg, f).state))
      && (vrHelper.Some? && !vrHelper.value.leftController ==>
            Reference(st, cfg, f).state.leftArmPos == st.leftArmPos
            && Reference(st, cfg, f).state.leftArmRot == st.leftArmRot)
      && (vrHelper.Some? && !vrHelper.value.rightController ==>
            Reference(st, cfg, f).state.rightArmPos == st.rightArmPos
            && Reference(st, cfg, f).state.rightArmRot == st.rightArmRot)
  {
    var res := cfg.resolution;
    var st1 := st.(pos := Settle(st.pos, CameraPosition(cam), res),
                   rot := SettleIf(cfg.trackRotation, st.rot, CameraRotation(cam), res));
    var e1 := Entry("position", st.pos, CameraPosition(cam), res);
    var e2 := EntryIf(cfg.trackRotation, "rotation", st.rot, CameraRotation(cam), res);
    assert e1 + e2 == [] <==> NearRecord(st.pos, CameraPosition(cam), res)
                              && (cfg.trackRotation ==> NearRecord(st.rot, CameraRotation(cam), res));
    if !cfg.trackRotation {
      EntryShape(true, "position", st.pos, CameraPosition(cam), res, "rotation");
      assert e1 + e2 == e1;
    }
    match vrHelper
    case None =>
    case Some(vr) =>
      VrReferenceFacts(st1, res, vr, e1 + e2);
      assert QuietVr(st1, res, vr) == QuietVr(st, res, vr);
  }

  /** One tick of the tracker. */
  function TrackChanges(st: TrackerState, cfg: Config, frame: Frame, listeners: seq<nat>): (r: Tick)
    // traffic reduction: something is sent iff some sampled quantity moved
    ensures r.effects == [] <==> r.batch == []
    ensures r.batch == [] <==> Quiet(st, cfg, frame)
    ensures r.batch != [] ==> r.effects == [SendMyChanges(r.batch)] + NotifyAll(listeners, r.batch)
    // what is published and recorded is the reference tick
    ensures r.batch == Reference(st, cfg, frame).batch && r.state == Reference(st, cfg, frame).state
    // no tracked mesh and no camera: nothing at all happens
    ensures frame.mesh.None? && frame.camera.None? ==> r == Tick(st, [], [])
    // third-person view samples only position and rotation
    ensures frame.mesh.Some? ==> VrUntouched(st, r.state)
    // first-person view without rotation tracking leaves rotation alone
    ensures frame.mesh.None? && !cfg.trackRotation ==> r.state.rot == st.rot && NoField(r.batch, "rotation")
    // arms and height are sampled only with a VR helper and its controllers
    ensures frame.mesh.None? && frame.vrHelper.None? ==> VrUntouched(st, r.state)
    ensures frame.mesh.None? && frame.vrHelper.Some? && !frame.vrHelper.value.leftController ==>
      r.state.leftArmPos == st.leftArmPos && r.state.leftArmRot == st.leftArmRot
    ensures frame.mesh.None? && frame.vrHelper.Some? && !frame.vrHelper.value.rightController ==>
      r.state.rightArmPos == st.rightArmPos && r.state.rightArmRot == st.rightArmRot
  {
    if frame.mesh.Some? then
      var s := SampleMesh(st, cfg.resolution, frame.mesh.value);
      Publish(s.state, s.batch, listeners)
    else if frame.camera.None? then
      Tick(st, [], [])
    else
      var s := SampleCamera(st, cfg, frame.camera.value, frame.vrHelper);
      Publish(s.state, s.batch, listeners)
  }

  /** A record just compared against a sample is within tolerance of it
      afterwards (for a non-negative tolerance). */
  lemma CheckChangeSettles(field: string, rec: Tracked, pos: Sample, range: real, changes: seq<Change>)
    requires range >= 0.0
    ensures NearRecord(CheckChange(field, rec, pos, range, changes).rec, pos, range)
  {
  }

  /** A second tick over the same frame publishes nothing: the state was
      updated before the next comparison. */
  lemma {:induction false} SecondTickQuiet(st: TrackerState, cfg: Config, frame: Frame, listeners: seq<nat>, listeners': seq<nat>)
    requires cfg.resolution >= 0.0
    ensures TrackChanges(TrackChanges(st, cfg, frame, listeners).state, cfg, frame, listeners').effects == []
  {
    var res := cfg.resolution;
    var st' := TrackChanges(st, cfg, frame, listeners).state;
    if frame.mesh.Some? {
      var m := frame.mesh.value;
      CheckChangeSettles("position", st.pos, MeshPosition(m), res, []);
      var p := CheckChange("position", st.pos, MeshPosition(m), res, []);
      CheckChangeSettles("rotation", st.rot, m.rotation, res, p.changes);
    } else if frame.camera.Some? {
      var cam := frame.camera.value;
      CheckChangeSettles("position", st.pos, CameraPosition(cam), res, []);
      var p := CheckChange("position", st.pos, CameraPosition(cam), res, []);
      if cfg.trackRotation {
        CheckChangeSettles("rotation", st.rot, CameraRotation(cam), res, p.changes);
      }
      if frame.vrHelper.Some? {
        var vr := frame.vrHelper.value;
        var q := CheckIf(cfg.trackRotation, "rotation", st.rot, CameraRotation(cam), res, p.changes);
        var lp := CheckIf(vr.leftController, "leftArmPos", st.leftArmPos, vr.leftArmPos, res, q.changes);
        var lr := CheckIf(vr.leftController, "leftArmRot", st.leftArmRot, vr.leftArmRot, res, lp.changes);
        var rp := CheckIf(vr.rightController, "rightArmPos", st.rightArmPos, vr.rightArmPos, res, lr.changes);
        if vr.leftController {
          CheckChangeSettles("leftArmPos", st.leftArmPos, vr.leftArmPos, res, q.changes);
          CheckChangeSettles("leftArmRot", st.leftArmRot, vr.leftArmRot, res, lp.changes);
        }
        if vr.rightController {
          CheckChangeSettles("rightArmPos", st.rightArmPos, vr.rightArmPos, res, lr.changes);
          CheckChangeSettles("rightArmRot", st.rightArmRot, vr.rightArmRot, res, rp.changes);
        }
      }
    }
    assert Quiet(st', cfg, frame);
  }

  /** In third-person view the rotation-tracking switch makes no difference. */
  lemma MeshModeIgnoresTrackRotation(st: TrackerState, cfg: Config, frame: Frame, listeners: seq<nat>)
    requires frame.mesh.Some?
    ensures TrackChanges(st, cfg, frame, listeners) == TrackChanges(st, cfg.(trackRotation := !cfg.trackRotation), frame, listeners)
  {
  }

  /** The `w` component of a record neither influences nor is touched by a
      comparison. */
  lemma CheckChangeIgnoresW(field: string, rec: Tracked, w: Option<real>, pos: Sample, range: real, changes: seq<Change>)
    ensures CheckChange(field, rec.(w := w), pos, range, changes).changes == CheckChange(field, rec, pos, range, changes).changes
    ensures CheckChange(field, rec.(w := w), pos, range, changes).rec == CheckChange(field, rec, pos, range, changes).rec.(w := w)
  {
  }

  /** The first comparison is effectively against 0: the world manager's
      fresh records see a sample within tolerance of the origin as
      unchanged. */
  lemma UnsetComparesLikeZero(field: string, pos: Sample, range: real)
    ensures CheckChange(field, Initial.pos, pos, range, []).changes == [] <==>
      (Abs(pos.x) <= range && Abs(pos.y) <= range && Abs(pos.z) <= range)
  {
  }
}

=== FILE: filter.dfy ===
/** The object filters of the server: predicates over shared objects that
    select the active ones, the ones a client owns, either, or everything
    except clients that went offline. Whether an object is active and
    whether a client owns an object are decided elsewhere; the active flag is
    a field here and ownership a parameter. */
module Filter {

  /** A shared object on the server: active or not, and a client (a user's
      own object) or not. */
  datatype VRObject = VRObject(id: nat, active: bool, isClient: bool)

  /** The objects that are clients. */
  type Client = o: VRObject | o.isClient witness VRObject(0, false, true)

  type Filter = VRObject -> bool

  /** The ownership relation, `c.isOwner(o)`. */
  type Ownership = (Client, VRObject) -> bool

  /** `isActive()`. */
  function IsActive(): (f: Filter)
    ensures forall o: VRObject :: f(o) <==> o.active
  {
    (o: VRObject) => o.active
  }

  /** `isOwned(c)`. */
  function IsOwned(c: Client, owns: Ownership): (f: Filter)
    ensures forall o: VRObject :: f(o) <==> owns(c, o)
  {
    (o: VRObject) => owns(c, o)
  }

  /** `isActiveOrOwned(c)`: the union of the two filters above. */
  function IsActiveOrOwned(c: Client, owns: Ownership): (f: Filter)
    ensures forall o: VRObject :: f(o) <==> IsActive()(o) || IsOwned(c, owns)(o)
  {
    (o: VRObject) => o.active || owns(c, o)
  }

  /** `removeOfflineClients()`: keeps everything but inactive clients. */
  function RemoveOfflineClients(): (f: Filter)
    ensures forall o: VRObject :: !o.isClient ==> f(o)
    ensures forall o: VRObject :: o.isClient ==> (f(o) <==> IsActive()(o))
  {
    (o: VRObject) => !o.isClient || o.active
  }

  /** Either half of `isActiveOrOwned` lets an object through on its own. */
  lemma ActiveOrOwnedWidens(c: Client, owns: Ownership, o: VRObject)
    ensures IsActive()(o) ==> IsActiveOrOwned(c, owns)(o)
    ensures IsOwned(c, owns)(o) ==> IsActiveOrOwned(c, owns)(o)
  {
  }

  /** Every active object survives `removeOfflineClients`, and so does every
      object `isActive` rejects unless it is a client. */
  lemma OfflineFilterWeakerThanActive(o: VRObject)
    ensures IsActive()(o) ==> RemoveOfflineClients()(o)
    ensures RemoveOfflineClients()(o) && !IsActive()(o) ==> !o.isClient
  {
  }
}

=== FILE: fix_probe.dfy ===
/** The path handling at the start of `loadAvatar`: the mesh URL is split
    into base URL, directory and file with `lastIndexOf` and `substring`, an
    optional fix file is probed, and probes that failed are remembered so
    that the same path is never fetched again. */
module FixProbe {
  import opened WorldTypes

  /** `s.lastIndexOf(c)`: -1 when absent. */
  function LastIndexOf(s: string, c: char): (r: int)
    ensures -1 <= r < |s|
    ensures r == -1 <==> c !in s
    ensures 0 <= r ==> s[r] == c && c !in s[r + 1..]
  {
    if |s| == 0 then -1
    else if s[|s| - 1] == c then |s| - 1
    else
      assert s == s[..|s| - 1] + [s[|s| - 1]];
      LastIndexOf(s[..|s| - 1], c)
  }

  /** An occurrence is never after the last one. */
  lemma LastIndexOfBound(s: string, c: char, k: int)
    requires 0 <= k < |s| && s[k] == c
    ensures k <= LastIndexOf(s, c)
  {
  }

  function Clamp(i: int, n: nat): (r: nat)
    ensures r <= n
    ensures 0 <= i <= n ==> r == i
  {
    if i < 0 then 0 else if i > n then n else i
  }

  /** `s.substring(start, end)` with JavaScript's rules: both indices are
      clamped to [0, |s|] and swapped when start exceeds end. */
  function Substring(s: string, start: int, end: int): (r: string)
    ensures |r| <= |s|
    ensures 0 <= start <= end <= |s| ==> r == s[start..end]
    ensures end < 0 ==> r == s[..Clamp(start, |s|)]
  {
    var a := Clamp(start, |s|);
    var b := Clamp(end, |s|);
    if a <= b then s[a..b] else s[b..a]
  }

  /** `path.substring(0, pos)` and `path.substring(pos + 1)` around the last
      slash: the part before it and the part after it, slash dropped. */
  function CutAtLastSlash(s: string): (r: (string, string))
    ensures '/' !in r.1
    ensures '/' in s ==> s == r.0 + "/" + r.1 && r.0 == s[..LastIndexOf(s, '/')]
    ensures '/' !in s ==> r == ("", s)
  {
    var pos := LastIndexOf(s, '/');
    var before := Substring(s, 0, pos);
    var after := Substring(s, pos + 1, |s|);
    assert pos >= 0 ==> before == s[..pos] && after == s[pos + 1..];
    assert pos >= 0 ==> s == s[..pos] + "/" + s[pos + 1..];
    assert pos < 0 ==> before == "" && after == s;
    (before, after)
  }

  /** `path.substring(0, pos + 1)` and `path.substring(pos + 1)` around the
      last slash: the part up to and including it, and the part after it. */
  function SplitAfterLastSlash(s: string): (r: (string, string))
    ensures r.0 + r.1 == s
    ensures '/' !in r.1
    ensures r.0 == "" || r.0[|r.0| - 1] == '/'
  {
    var pos := LastIndexOf(s, '/');
    var upTo := Substring(s, 0, pos + 1);
    var after := Substring(s, pos + 1, |s|);
    assert upTo == s[..pos + 1] && after == s[pos + 1..];
    assert s == s[..pos + 1] + s[pos + 1..];
    (upTo, after)
  }

  /** A mesh URL taken apart as `loadAvatar` does. */
  datatype MeshPath = MeshPath(baseUrl: string, dir: string, file: string)

  /** The last path segment is the file, the one before it the directory, and
      everything before that (slash included) the base URL. Gluing the parts
      back together gives the mesh URL again. */
  function SplitMesh(mesh: string): (r: MeshPath)
    ensures '/' !in r.file && '/' !in r.dir
    ensures r.baseUrl == "" || r.baseUrl[|r.baseUrl| - 1] == '/'
    ensures '/' in mesh ==> r.baseUrl + r.dir + "/" + r.file == mesh
    ensures '/' in mesh ==> r.baseUrl + r.dir == mesh[..LastIndexOf(mesh, '/')]
    ensures '/' !in mesh ==> r == MeshPath("", "", mesh)
  {
    var (path, file) := CutAtLastSlash(mesh);
    var (baseUrl, dir) := SplitAfterLastSlash(path);
    MeshPath(baseUrl, dir, file)
  }

  /** ASCII case folding, standing in for `toLowerCase`. */
  function Lower(c: char): char {
    if 'A' <= c <= 'Z' then (c as int + 32) as char else c
  }

  function LowerCase(s: string): (r: string)
    ensures |r| == |s|
    ensures forall i :: 0 <= i < |s| ==> r[i] == Lower(s[i])
  {
    seq(|s|, i requires 0 <= i < |s| => Lower(s[i]))
  }

  predicate EndsWith(s: string, suffix: string) {
    |suffix| <= |s| && s[|s| - |suffix|..] == suffix
  }

  /** The file is a binary glTF: its name ends in ".glb", in any case. */
  predicate IsGlb(file: string) {
    EndsWith(LowerCase(file), ".glb")
  }

  const FixSuffix: string := "-fixes.json"

  /** The fix file probed for a mesh. A glTF model is fixed by a file named
      after its directory, next to that directory; a binary glTF by a file
      named after the model itself, in the same directory. */
  function FixPath(mesh: string): (r: string)
    ensures IsGlb(SplitMesh(mesh).file) ==>
      && LastIndexOf(mesh, '/') < LastIndexOf(mesh, '.')
      && r == mesh[..LastIndexOf(mesh, '.')] + FixSuffix
    ensures !IsGlb(SplitMesh(mesh).file) ==>
      r == (if '/' in mesh then mesh[..LastIndexOf(mesh, '/')] else "") + FixSuffix
  {
    var parts := SplitMesh(mesh);
    if IsGlb(parts.file) then
      var dot := LastIndexOf(mesh, '.');
      GlbDotInFile(mesh);
      assert Substring(mesh, 0, dot) == mesh[..dot];
      Substring(mesh, 0, dot) + FixSuffix
    else
      assert parts.baseUrl + parts.dir == if '/' in mesh then mesh[..LastIndexOf(mesh, '/')] else "";
      parts.baseUrl + parts.dir + FixSuffix
  }

  /** The file of a ".glb" mesh contains a dot, so the mesh's last dot lies
      after its last slash. */
  lemma GlbDotInFile(mesh: string)
    requires IsGlb(SplitMesh(mesh).file)
    ensures LastIndexOf(mesh, '/') < LastIndexOf(mesh, '.')
  {
    GlbHasDot(SplitMesh(mesh).file);
    FileAfterLastSlash(mesh);
    DotAfterSlash(mesh);
  }

  /** The file of a mesh path is everything after its last slash. */
  lemma FileAfterLastSlash(mesh: string)
    ensures SplitMesh(mesh).file == mesh[LastIndexOf(mesh, '/') + 1..]
  {
    if '/' in mesh {
      SplitAtSlash(mesh, LastIndexOf(mesh, '/'));
    } else {
      assert mesh[0..] == mesh;
    }
  }

  /** A dot four places from the end of what follows the last slash lies
      after that slash. */
  lemma DotAfterSlash(mesh: string)
    requires var f := mesh[LastIndexOf(mesh, '/') + 1..]; |f| >= 4 && f[|f| - 4] == '.'
    ensures LastIndexOf(mesh, '/') < LastIndexOf(mesh, '.')
  {
    var f := mesh[LastIndexOf(mesh, '/') + 1..];
    assert mesh[|mesh| - 4] == f[|f| - 4];
    LastIndexOfBound(mesh, '.', |mesh| - 4);
  }

  /** A ".glb" name, in any case, has its dot four places from the end. */
  lemma GlbHasDot(file: string)
    requires IsGlb(file)
    ensures |file| >= 4 && file[|file| - 4] == '.'
  {
    var k := |file| - 4;
    assert LowerCase(file)[k..][0] == '.';
    assert Lower(file[k]) == '.';
  }

  /** What the fix-file fetch did: an ok response, a not-ok response, or a
      rejected promise (a CORS failure, say). */
  datatype FetchOutcome = Ok | NotOk | Rejected

  /** `fix` is the probe path when the file exists; `fetched` is the path
      that was requested, if any. */
  datatype Probe = Probe(fix: Option<string>, notFound: seq<string>, fetched: Option<string>)

  /** Probes one path against the negative cache `notFound`. */
  function ProbeFix(notFound: seq<string>, path: string, outcome: FetchOutcome): (r: Probe)
    ensures |notFound| <= |r.notFound| <= |notFound| + 1 && r.notFound[..|notFound|] == notFound
    ensures path in notFound ==> r == Probe(None, notFound, None)
    ensures path !in notFound ==> r.fetched == Some(path)
    ensures r.fix.Some? <==> path !in notFound && outcome == Ok
    ensures r.fix.Some? ==> r.fix.value == path && r.notFound == notFound
    ensures path !in notFound && outcome != Ok ==> r.notFound == notFound + [path]
    // afterwards the path is either known to exist or cached as missing
    ensures path in r.notFound <==> r.fix.None?
  {
    if path in notFound then Probe(None, notFound, None)
    else Probe(if outcome == Ok then Some(path) else None, EndProbe(notFound, path, outcome), Some(path))
  }

  /** Once a probe has failed, the same path is never fetched again,
      whatever the next fetch would have answered. */
  lemma FailedProbeIsCached(notFound: seq<string>, path: string, first: FetchOutcome, second: FetchOutcome)
    requires ProbeFix(notFound, path, first).fix.None?
    ensures ProbeFix(ProbeFix(notFound, path, first).notFound, path, second) == Probe(None, ProbeFix(notFound, path, first).notFound, None)
  {
  }

  predicate Distinct(s: seq<string>) {
    forall i, j :: 0 <= i < j < |s| ==> s[i] != s[j]
  }

  // ------------------------------------------------ overlapping avatar loads

  /* `loadAvatar` consults the cache, awaits the fetch, and only then
     updates the cache; the scene listener does not await `loadAvatar`, so
     other loads run in between. The cache is only written when a fetch
     settles, so its history is the run of settlements in the order they
     happen, whatever the interleaving. */

  /** The first half of a probe: a fetch is issued iff the path is not cached
      when the load consults the cache. */
  predicate BeginProbe(notFound: seq<string>, path: string) {
    path !in notFound
  }

  /** The second half as written: a failed fetch appends the path, even when
      an overlapping load has cached it in the meantime. */
  function EndProbeAsWritten(notFound: seq<string>, path: string, outcome: FetchOutcome): (r: seq<string>)
    ensures outcome == Ok ==> r == notFound
    ensures outcome != Ok ==> |r| == |notFound| + 1 && r[..|notFound|] == notFound && r[|notFound|] == path
  {
    if outcome == Ok then notFound else notFound + [path]
  }

  /** The second half as evidently intended: a failed fetch caches the path
      unless it already is cached. */
  function EndProbe(notFound: seq<string>, path: string, outcome: FetchOutcome): (r: seq<string>)
    ensures path in r <==> path in notFound || outcome != Ok
    ensures forall p :: p in r <==> p in notFound || (p == path && outcome != Ok)
    ensures |r| >= |notFound| && r[..|notFound|] == notFound
    ensures Distinct(notFound) ==> Distinct(r)
    ensures path !in notFound ==> r == EndProbeAsWritten(notFound, path, outcome)
  {
    if outcome == Ok || path in notFound then notFound else notFound + [path]
  }

  /** Two loads of the same avatar that overlap both find the fix path
      uncached, both fetch it, and on two failures the written code caches
      it twice. The corrected end caches it once; it does not stop the
      second fetch, which was started before the first one failed. */
  lemma OverlappingLoadsCacheTwice(path: string)
    // both loads consult the cache before either fetch settles: both fetch
    ensures BeginProbe([], path)
    ensures var once := EndProbeAsWritten([], path, NotOk);
            var twice := EndProbeAsWritten(once, path, NotOk);
            twice == [path, path] && !Distinct(twice)
    ensures EndProbe(EndProbe([], path, NotOk), path, NotOk) == [path]
  {
    var twice := EndProbeAsWritten(EndProbeAsWritten([], path, NotOk), path, NotOk);
    assert twice[0] == twice[1];
  }

  /** The settlements of any set of overlapping probes, in the order the
      fetches settle. */
  function EndAll(notFound: seq<string>, ends: seq<(string, FetchOutcome)>): seq<string>
    decreases |ends|
  {
    if |ends| == 0 then notFound
    else EndAll(EndProbe(notFound, ends[0].0, ends[0].1), ends[1..])
  }

  /** With the correction, no interleaving of loads caches a path twice, and
      the cache holds exactly the paths that failed. */
  lemma {:induction false} OverlappingLoadsKeepCacheDistinct(notFound: seq<string>, ends: seq<(string, FetchOutcome)>)
    requires Distinct(notFound)
    ensures Distinct(EndAll(notFound, ends))
    ensures forall p :: p in EndAll(notFound, ends) <==>
      p in notFound || exists i :: 0 <= i < |ends| && ends[i].0 == p && ends[i].1 != Ok
    decreases |ends|
  {
    if |ends| > 0 {
      var next := EndProbe(notFound, ends[0].0, ends[0].1);
      OverlappingLoadsKeepCacheDistinct(next, ends[1..]);
      forall p
        ensures p in EndAll(notFound, ends) <==>
          p in notFound || exists i :: 0 <= i < |ends| && ends[i].0 == p && ends[i].1 != Ok
      {
        if exists i :: 0 <= i < |ends| && ends[i].0 == p && ends[i].1 != Ok {
          var i :| 0 <= i < |ends| && ends[i].0 == p && ends[i].1 != Ok;
          if i > 0 {
            assert ends[1..][i - 1] == ends[i];
          }
        }
        if exists i :: 0 <= i < |ends[1..]| && ends[1..][i].0 == p && ends[1..][i].1 != Ok {
          var i :| 0 <= i < |ends[1..]| && ends[1..][i].0 == p && ends[1..][i].1 != Ok;
          assert ends[i + 1] == ends[1..][i];
        }
      }
    }
  }

  /** A run of probes, each with its path and the answer a fetch would give;
      returns the final cache. */
  function ProbeAll(notFound: seq<string>, requests: seq<(string, FetchOutcome)>): seq<string>
    decreases |requests|
  {
    if |requests| == 0 then notFound
    else ProbeAll(ProbeFix(notFound, requests[0].0, requests[0].1).notFound, requests[1..])
  }

  /** Over any run of probes the cache only grows and never holds a path
      twice: every missing path is fetched and recorded at most once. */
  lemma {:induction false} ProbeAllKeepsCacheDistinct(notFound: seq<string>, requests: seq<(string, FetchOutcome)>)
    requires Distinct(notFound)
    ensures Distinct(ProbeAll(notFound, requests))
    ensures |ProbeAll(notFound, requests)| >= |notFound|
    ensures ProbeAll(notFound, requests)[..|notFound|] == notFound
    decreases |requests|
  {
    if |requests| > 0 {
      var next := ProbeFix(notFound, requests[0].0, requests[0].1).notFound;
      assert Distinct(next);
      ProbeAllKeepsCacheDistinct(next, requests[1..]);
      var fin := ProbeAll(notFound, requests);
      assert fin[..|next|] == next;
      assert fin[..|notFound|] == fin[..|next|][..|notFound|];
    }
  }

  /** The directory listing an avatar is loaded from, with its optional fix. */
  datatype ServerFolder = ServerFolder(baseUrl: string, dir: string, fix: Option<string>)

  datatype AvatarSource = AvatarSource(folder: ServerFolder, file: string, notFound: seq<string>, fetched: Option<string>)

  /** Where `loadAvatar` loads an avatar from, after probing its fix file. */
  function LoadAvatar(notFound: seq<string>, mesh: string, outcome: FetchOutcome): (r: AvatarSource)
    ensures '/' in mesh ==> r.folder.baseUrl + r.folder.dir + "/" + r.file == mesh
    ensures '/' !in r.file
    ensures r.folder.fix.Some? <==> FixPath(mesh) !in notFound && outcome == Ok
    ensures r.folder.fix.Some? ==> r.folder.fix.value == FixPath(mesh)
    ensures r.fetched.Some? <==> FixPath(mesh) !in notFound
    ensures |notFound| <= |r.notFound| && r.notFound[..|notFound|] == notFound
  {
    var parts := SplitMesh(mesh);
    var fix := FixPath(mesh);
    var probe := ProbeFix(notFound, fix, outcome);
    assert probe.fix.Some? <==> fix !in notFound && outcome == Ok;
    AvatarSource(ServerFolder(parts.baseUrl, parts.dir, probe.fix), parts.file, probe.notFound, probe.fetched)
  }

  /** The last occurrence of `c` is at `k` when `c` sits at `k` and nowhere
      after it. */
  lemma LastIndexOfAt(s: string, c: char, k: int)
    requires 0 <= k < |s| && s[k] == c && c !in s[k + 1..]
    ensures LastIndexOf(s, c) == k
  {
    LastIndexOfBound(s, c, k);
  }

  /** When the slash at `k` is the last one, the mesh split yields what
      follows it as the file. */
  lemma SplitAtSlash(m: string, k: nat)
    requires k < |m| && m[k] == '/' && '/' !in m[k + 1..]
    ensures LastIndexOf(m, '/') == k
    ensures SplitMesh(m).file == m[k + 1..]
  {
    LastIndexOfAt(m, '/', k);
    var parts := SplitMesh(m);
    var front := parts.baseUrl + parts.dir + "/";
    assert |front| == k + 1;
    assert m[k + 1..] == (front + parts.file)[|front|..];
  }

  /** Below a slash-free file, the file's slash is the last one and the file
      is what the mesh split yields. */
  lemma SlashFile(path: string, file: string)
    requires '/' !in file
    ensures LastIndexOf(path + "/" + file, '/') == |path|
    ensures SplitMesh(path + "/" + file).file == file
    ensures (path + "/" + file)[..|path|] == path
  {
    JoinAtSlash(path, file);
    SplitAtSlash(path + "/" + file, |path|);
  }

  lemma JoinAtSlash(path: string, file: string)
    ensures (path + "/" + file)[|path|] == '/'
    ensures (path + "/" + file)[|path| + 1..] == file
    ensures (path + "/" + file)[..|path|] == path
  {
    var m := path + "/" + file;
    assert m == path + ("/" + file);
  }

  /** A model that is not a ".glb" file, such as "avatars/bob/scene.gltf",
      probes a file named after its directory beside that directory:
      "avatars/bob-fixes.json". */
  lemma DirectoryFixPath(path: string, file: string)
    requires '/' !in file && !IsGlb(file)
    ensures FixPath(path + "/" + file) == path + FixSuffix
  {
    SlashFile(path, file);
  }

  /** A ".glb" model, such as "avatars/bob/Bob.GLB", probes a file named after
      the model in its own directory: "avatars/bob/Bob-fixes.json". */
  lemma GlbFixPath(path: string, name: string, ext: string)
    requires '/' !in name && '.' !in name
    requires LowerCase(ext) == ".glb"
    ensures FixPath(path + "/" + name + ext) == path + "/" + name + FixSuffix
  {
    var stem := path + "/" + name;
    GlbExtension(name, ext);
    assert stem + ext == path + "/" + (name + ext);
    SlashFile(path, name + ext);
    JoinAtDot(stem, ext);
    assert '.' !in (stem + ext)[|stem| + 1..];
    GlbFixAt(stem + ext, |stem|);
  }

  /** A ".glb" mesh whose last dot is at `dot` is fixed by what precedes the
      dot, with the suffix appended. */
  lemma GlbFixAt(m: string, dot: nat)
    requires IsGlb(SplitMesh(m).file)
    requires dot < |m| && m[dot] == '.' && '.' !in m[dot + 1..]
    ensures FixPath(m) == m[..dot] + FixSuffix
  {
    LastIndexOfAt(m, '.', dot);
  }

  /** The pieces of a path joined to an extension that starts with a dot. */
  lemma JoinAtDot(stem: string, ext: string)
    requires |ext| > 0
    ensures (stem + ext)[|stem|] == ext[0]
    ensures (stem + ext)[|stem| + 1..] == ext[1..]
    ensures (stem + ext)[..|stem|] == stem
  {
  }

  /** An extension that lower-cases to ".glb" is a dot followed by three
      letters, and makes any name a ".glb" file. */
  lemma GlbExtension(name: string, ext: string)
    requires LowerCase(ext) == ".glb"
    ensures |ext| == 4 && ext[0] == '.' && '.' !in ext[1..] && '/' !in ext
    ensures IsGlb(name + ext)
  {
    assert Lower(ext[0]) == '.' && Lower(ext[1]) == 'g' && Lower(ext[2]) == 'l' && Lower(ext[3]) == 'b';
    assert ext[1..] == [ext[1], ext[2], ext[3]];
    var f := name + ext;
    assert LowerCase(f)[|f| - 4..] == LowerCase(ext);
  }
}

=== FILE: handshake.dfy ===
/** The outbound command sequence of `enter`: connect, send the own
    properties, then Enter and Session; or, when already online, Enter only.
    Asynchrony is reduced to two phases: what is sent at once, and what the
    one-shot welcome listener sends when the connection's welcome arrives. */
module Handshake {
  import opened WorldTypes

  datatype Command<V> =
    | Connect(serverUrl: string)
    | SendMy(property: string, value: V)
    | SendCommand(name: string, world: Option<string>)

  /** Which welcome message settles the promise `enter` returns. */
  datatype Resolution = OnConnectWelcome | OnEnterWelcome | Never

  datatype EnterPlan<V> = EnterPlan(
    immediate: seq<Command<V>>,
    afterWelcome: seq<Command<V>>,
    resolution: Resolution,
    rejectsOnDisconnect: bool)

  function EnterCmd<V>(world: string): Command<V> {
    SendCommand("Enter", Some(world))
  }

  function SessionCmd<V>(): Command<V> {
    SendCommand("Session", None)
  }

  /** One `sendMy` per own property, in the properties' order. */
  function SendAll<V>(properties: seq<(string, V)>): (r: seq<Command<V>>)
    ensures |r| == |properties|
    ensures forall i :: 0 <= i < |r| ==> r[i] == SendMy(properties[i].0, properties[i].1)
  {
    seq(|properties|, i requires 0 <= i < |properties| => SendMy(properties[i].0, properties[i].1))
  }

  /** The plan of `enter(properties)` for a world named `worldName` (only a
      truthy name counts), given whether the session is already online. */
  function Enter<V>(online: bool, serverUrl: string, worldName: Option<string>, properties: seq<(string, V)>): (r: EnterPlan<V>)
    // offline: connect first, nothing else until the welcome arrives
    ensures !online ==> r.immediate == [Connect(serverUrl)] && r.rejectsOnDisconnect
    // offline: the welcome sends every property in order, then Session last
    ensures !online ==>
      && |r.afterWelcome| >= |properties| + 1
      && r.afterWelcome[..|properties|] == SendAll(properties)
      && r.afterWelcome[|r.afterWelcome| - 1] == SessionCmd()
    // offline into a named world: Enter immediately before Session
    ensures !online && Truthy(worldName) ==>
      && r.afterWelcome[|properties|..] == [EnterCmd(worldName.value), SessionCmd()]
      && r.resolution == OnEnterWelcome
    ensures !online && !Truthy(worldName) ==>
      r.afterWelcome[|properties|..] == [SessionCmd()] && r.resolution == OnConnectWelcome
    // online: the connection is reused; no Connect, no properties, no Session
    ensures online ==> r.afterWelcome == [] && !r.rejectsOnDisconnect
    ensures online && Truthy(worldName) ==> r.immediate == [EnterCmd(worldName.value)] && r.resolution == OnEnterWelcome
    ensures online && !Truthy(worldName) ==> r.immediate == [] && r.resolution == Never
  {
    if !online then
      var tail := if Truthy(worldName) then [EnterCmd(worldName.value), SessionCmd()] else [SessionCmd()];
      EnterPlan([Connect(serverUrl)], SendAll(properties) + tail,
                if Truthy(worldName) then OnEnterWelcome else OnConnectWelcome, true)
    else if Truthy(worldName) then
      EnterPlan([EnterCmd(worldName.value)], [], OnEnterWelcome, false)
    else
      EnterPlan([], [], Never, false)
  }

  /** Every command the plan sends over a successful handshake. */
  function AllCommands<V>(p: EnterPlan<V>): seq<Command<V>> {
    p.immediate + p.afterWelcome
  }

  function CountConnects<V>(cs: seq<Command<V>>): nat {
    if |cs| == 0 then 0 else (if cs[0].Connect? then 1 else 0) + CountConnects(cs[1..])
  }

  /** However the call is made, `enter` connects at most once, and connects
      exactly when it starts offline. */
  lemma {:induction false} EnterConnectsOnlyWhenOffline<V>(online: bool, serverUrl: string, worldName: Option<string>, properties: seq<(string, V)>)
    ensures CountConnects(AllCommands(Enter(online, serverUrl, worldName, properties))) == (if online then 0 else 1)
  {
    var p := Enter(online, serverUrl, worldName, properties);
    ConnectsAppend(p.immediate, p.afterWelcome);
    assert CountConnects<V>([]) == 0;
    if online {
      if Truthy(worldName) {
        CountSingle(EnterCmd<V>(worldName.value));
      }
    } else {
      CountSingle<V>(Connect(serverUrl));
      NoConnectsInSends(properties);
      CountSingle(SessionCmd<V>());
      if Truthy(worldName) {
        var tail := [EnterCmd<V>(worldName.value), SessionCmd<V>()];
        CountSingle(EnterCmd<V>(worldName.value));
        ConnectsAppend([EnterCmd<V>(worldName.value)], [SessionCmd<V>()]);
        assert [EnterCmd<V>(worldName.value)] + [SessionCmd<V>()] == tail;
        ConnectsAppend(SendAll(properties), tail);
        assert p.afterWelcome == SendAll(properties) + tail;
      } else {
        ConnectsAppend(SendAll(properties), [SessionCmd<V>()]);
        assert p.afterWelcome == SendAll(properties) + [SessionCmd<V>()];
      }
    }
  }

  lemma CountSingle<V>(c: Command<V>)
    ensures CountConnects([c]) == if c.Connect? then 1 else 0
  {
    assert [c][1..] == [];
  }

  lemma {:induction false} ConnectsAppend<V>(a: seq<Command<V>>, b: seq<Command<V>>)
    ensures CountConnects(a + b) == CountConnects(a) + CountConnects(b)
  {
    if |a| == 0 {
      assert a + b == b;
    } else {
      assert (a + b)[1..] == a[1..] + b;
      ConnectsAppend(a[1..], b);
    }
  }

  lemma {:induction false} NoConnectsInSends<V>(properties: seq<(string, V)>)
    ensures CountConnects(SendAll(properties)) == 0
  {
    if |properties| > 0 {
      assert SendAll(properties)[1..] == SendAll(properties[1..]);
      NoConnectsInSends(properties[1..]);
    }
  }

  /** `enter({name: "Alice"})` into world "w" while offline: connect, send the
      name, then Enter and Session, settling on the enter welcome. */
  lemma AliceEnters(url: string)
    ensures var p := Enter(false, url, Some("w"), [("name", "Alice")]);
            && p.immediate == [Connect(url)]
            && p.afterWelcome == [SendMy("name", "Alice"), EnterCmd("w"), SessionCmd()]
            && p.resolution == OnEnterWelcome
  {
  }
}

=== FILE: lifecycle.dfy ===
/** Loading and unloading the local representation of a shared object: the
    three loading paths chosen by the scene listener (video avatar, 3D avatar,
    generic mesh) and the removal that disposes of every handle. The loaders'
    own asynchrony is reduced to the callback that runs once loading is done. */
module Lifecycle {
  import opened WorldTypes
  import opened ChangeRouter

  // ---------------------------------------------------------------- removal

  /** Whether the object holds the resource `removeMesh` would dispose. */
  predicate Holds(o: SharedObject, res: Resource) {
    match res
    case VideoResource => o.video.Some?
    case AnimResource(s) => SlotOf(o, s).Some?
    case StreamResource => o.streamToMesh.Some?
  }

  /** The order in which `removeMesh` disposes of the resources. */
  function Rank(res: Resource): nat {
    match res
    case VideoResource => 0
    case AnimResource(s) => (match s case Translate => 1 case Rotate => 2 case Rescale => 3)
    case StreamResource => 4
  }

  /** The effects before any disposal: drop the client's media streams, if
      there are any, then unload the object's assets. */
  function RemovePrefix(mediaStreams: bool): (r: seq<Effect>)
    ensures |r| == (if mediaStreams then 2 else 1)
    ensures RemoveClient in r <==> mediaStreams
    ensures r[|r| - 1] == UnloadObject
  {
    (if mediaStreams then [RemoveClient] else []) + [UnloadObject]
  }

  /** The order in which `removeMesh` looks at the resources. */
  const DisposalOrder: seq<Resource> :=
    [VideoResource, AnimResource(Translate), AnimResource(Rotate), AnimResource(Rescale), StreamResource]

  /** One disposal for each resource of `rs` the object holds, in the order
      of `rs`. */
  function DisposeHeld(o: SharedObject, rs: seq<Resource>): (r: seq<Effect>)
    ensures |r| <= |rs|
    ensures forall i :: 0 <= i < |r| ==> r[i].Dispose? && r[i].resource in rs && Holds(o, r[i].resource)
  {
    if |rs| == 0 then []
    else (if Holds(o, rs[0]) then [Dispose(rs[0])] else []) + DisposeHeld(o, rs[1..])
  }

  /** Strictly increasing rank. */
  predicate Ranked(rs: seq<Resource>) {
    forall i, j :: 0 <= i < j < |rs| ==> Rank(rs[i]) < Rank(rs[j])
  }

  /** Disposals in strictly increasing rank. */
  predicate DisposedInOrder(ds: seq<Effect>)
    requires forall i :: 0 <= i < |ds| ==> ds[i].Dispose?
  {
    forall i, j :: 0 <= i < j < |ds| ==> Rank(ds[i].resource) < Rank(ds[j].resource)
  }

  /** Disposing along a ranked order disposes in ranked order. */
  lemma {:induction false} DisposeHeldRanked(o: SharedObject, rs: seq<Resource>)
    requires Ranked(rs)
    ensures DisposedInOrder(DisposeHeld(o, rs))
  {
    if |rs| > 0 {
      DisposeHeldRanked(o, rs[1..]);
      var rest := DisposeHeld(o, rs[1..]);
      if Holds(o, rs[0]) {
        forall k | 0 <= k < |rest|
          ensures Rank(rs[0]) < Rank(rest[k].resource)
        {
          HeadRanksFirst(rs, rest[k].resource);
        }
        ConsInOrder(Dispose(rs[0]), rest);
        assert DisposeHeld(o, rs) == [Dispose(rs[0])] + rest;
      } else {
        assert DisposeHeld(o, rs) == rest;
      }
    }
  }

  /** In a ranked order the head ranks below everything after it. */
  lemma HeadRanksFirst(rs: seq<Resource>, x: Resource)
    requires Ranked(rs) && |rs| > 0 && x in rs[1..]
    ensures Rank(rs[0]) < Rank(x)
  {
    var m :| 0 <= m < |rs[1..]| && rs[1..][m] == x;
    assert rs[m + 1] == x;
  }

  /** A disposal ranked below a list in order keeps it in order in front. */
  lemma ConsInOrder(d: Effect, rest: seq<Effect>)
    requires d.Dispose? && forall i :: 0 <= i < |rest| ==> rest[i].Dispose?
    requires DisposedInOrder(rest)
    requires forall k :: 0 <= k < |rest| ==> Rank(d.resource) < Rank(rest[k].resource)
    ensures forall i :: 0 <= i < |[d] + rest| ==> ([d] + rest)[i].Dispose?
    ensures DisposedInOrder([d] + rest)
  {
    var ds := [d] + rest;
    forall i, j | 0 <= i < j < |ds|
      ensures Rank(ds[i].resource) < Rank(ds[j].resource)
    {
      assert ds[j] == rest[j - 1];
      if i > 0 {
        assert ds[i] == rest[i - 1];
      }
    }
  }

  /** Disposing along an order without repetitions disposes of each held
      resource of the order exactly once, and of nothing else. */
  lemma {:induction false} DisposeHeldCounts(o: SharedObject, rs: seq<Resource>, x: Resource)
    requires Ranked(rs)
    ensures multiset(DisposeHeld(o, rs))[Dispose(x)] == if x in rs && Holds(o, x) then 1 else 0
  {
    if |rs| > 0 {
      DisposeHeldCounts(o, rs[1..], x);
      if x == rs[0] {
        forall m | 0 <= m < |rs[1..]|
          ensures rs[1..][m] != x
        {
          assert Rank(rs[0]) < Rank(rs[m + 1]);
        }
      }
      assert x in rs <==> x == rs[0] || x in rs[1..];
    }
  }

  /** Every resource `removeMesh` knows about is in its order. */
  lemma DisposalOrderComplete(res: Resource)
    ensures res in DisposalOrder && Ranked(DisposalOrder)
  {
    match res {
      case AnimResource(s) =>
        match s {
          case Translate => assert DisposalOrder[1] == res;
          case Rotate => assert DisposalOrder[2] == res;
          case Rescale => assert DisposalOrder[3] == res;
        }
      case VideoResource => assert DisposalOrder[0] == res;
      case StreamResource => assert DisposalOrder[4] == res;
    }
  }

  /** The disposals of `removeMesh`: each held resource once, nothing else,
      in the fixed order video, translate, rotate, rescale, stream. */
  lemma Disposals(o: SharedObject)
    ensures var ds := DisposeHeld(o, DisposalOrder);
            && (forall res :: multiset(ds)[Dispose(res)] == if Holds(o, res) then 1 else 0)
            && DisposedInOrder(ds)
  {
    var ds := DisposeHeld(o, DisposalOrder);
    DisposalOrderComplete(VideoResource);
    DisposeHeldRanked(o, DisposalOrder);
    forall res
      ensures multiset(ds)[Dispose(res)] == if Holds(o, res) then 1 else 0
    {
      DisposalOrderComplete(res);
      DisposeHeldCounts(o, DisposalOrder, res);
    }
  }

  /** `removeMesh`: unload the object and dispose of every resource it holds,
      each exactly once and in a fixed order, leaving all five slots empty. */
  function RemoveMesh(o: SharedObject, mediaStreams: bool): (r: Routed)
    ensures r.obj == o.(video := None, translate := None, rotate := None, rescale := None, streamToMesh := None)
    ensures |r.effects| >= |RemovePrefix(mediaStreams)|
    ensures r.effects[..|RemovePrefix(mediaStreams)|] == RemovePrefix(mediaStreams)
    ensures var ds := r.effects[|RemovePrefix(mediaStreams)|..];
            && (forall i :: 0 <= i < |ds| ==> ds[i].Dispose?)
            && (forall res :: multiset(ds)[Dispose(res)] == if Holds(o, res) then 1 else 0)
            && DisposedInOrder(ds)
  {
    var ds := DisposeHeld(o, DisposalOrder);
    Disposals(o);
    assert (RemovePrefix(mediaStreams) + ds)[|RemovePrefix(mediaStreams)|..] == ds;
    Routed(o.(video := None, translate := None, rotate := None, rescale := None, streamToMesh := None),
           RemovePrefix(mediaStreams) + ds)
  }

  /** Removing an object twice disposes of nothing the second time. */
  lemma RemoveTwiceDisposesNothing(o: SharedObject, mediaStreams: bool)
    ensures RemoveMesh(RemoveMesh(o, mediaStreams).obj, mediaStreams).effects == RemovePrefix(mediaStreams)
  {
    var once := RemoveMesh(o, mediaStreams).obj;
    forall res
      ensures !Holds(once, res)
    {
    }
    NothingHeldNothingDisposed(once, DisposalOrder);
    assert RemoveMesh(once, mediaStreams).effects == RemovePrefix(mediaStreams) + [];
  }

  /** An object that holds nothing has nothing disposed of. */
  lemma {:induction false} NothingHeldNothingDisposed(o: SharedObject, rs: seq<Resource>)
    requires forall res :: !Holds(o, res)
    ensures DisposeHeld(o, rs) == []
  {
    if |rs| > 0 {
      NothingHeldNothingDisposed(o, rs[1..]);
    }
  }

  // ---------------------------------------------------------- video avatars

  /** The decimal numeral of a number, as string concatenation prints it. */
  function Decimal(n: nat): (r: string)
    ensures |r| >= 1
    ensures forall i :: 0 <= i < |r| ==> '0' <= r[i] <= '9'
    ensures r[0] == '0' ==> n == 0
    decreases n
  {
    var digit := ['0' + (n % 10) as char];
    if n < 10 then digit else Decimal(n / 10) + digit
  }

  /** The number a string of decimal digits denotes. */
  function DecimalValue(s: string): nat
    requires forall i :: 0 <= i < |s| ==> '0' <= s[i] <= '9'
  {
    if |s| == 0 then 0 else 10 * DecimalValue(s[..|s| - 1]) + (s[|s| - 1] - '0') as nat
  }

  /** The numeral of a number reads back as that number. */
  lemma {:induction false} DecimalRoundTrip(n: nat)
    ensures DecimalValue(Decimal(n)) == n
    decreases n
  {
    var r := Decimal(n);
    if n >= 10 {
      DecimalRoundTrip(n / 10);
      assert r[..|r| - 1] == Decimal(n / 10);
    }
  }

  /** The alternative text of a video avatar: the user's name, or "u" and the
      object's id when the name is falsy. */
  function AltText(o: SharedObject): (r: string)
    ensures Truthy(o.name) ==> r == o.name.value
    ensures !Truthy(o.name) ==> |r| >= 2 && r[0] == 'u'
    ensures !Truthy(o.name) ==> forall i :: 1 <= i < |r| ==> '0' <= r[i] <= '9'
    ensures !Truthy(o.name) ==> DecimalValue(r[1..]) == o.id
  {
    if Truthy(o.name) then o.name.value
    else
      DecimalRoundTrip(o.id);
      assert ("u" + Decimal(o.id))[1..] == Decimal(o.id);
      "u" + Decimal(o.id)
  }

  /** What the world manager holds when no position or rotation is known. */
  datatype Defaults = Defaults(position: Sample, rotation: Sample)

  /** Position far away from everything, rotation none. */
  const InitialDefaults: Defaults := Defaults(Vec(1000.0, 1000.0, 1000.0), Vec(0.0, 0.0, 0.0))

  /** The outcome of loading a video avatar: the object, the root node's
      position and rotation (None: left as created), the avatar's
      alternative text, and the effects in order. */
  datatype StreamLoad = StreamLoad(
    obj: SharedObject,
    rootPosition: Sample,
    rootRotation: Option<Sample>,
    altText: string,
    effects: seq<Effect>)

  /** No default would replace anything in this pose: the position is not
      the origin, and the rotation is absent or not the origin. */
  predicate Settled(p: Pose) {
    !IsOrigin(p.position) && (p.rotation.None? || !IsOrigin(p.rotation.value))
  }

  /** The world manager's own default rotation is itself the origin, so a
      rotation defaulted on load still reads as not initialized: with these
      defaults `LoadStream` settles the position but not a present
      rotation, and a later load applies the default rotation again. */
  lemma DefaultRotationLooksUnset(p: Pose)
    requires p.rotation == Some(InitialDefaults.rotation)
    ensures !IsOrigin(InitialDefaults.position)
    ensures !Settled(p)
  {
  }

  /** Applies the default position to a video avatar whose position is still
      the origin, animating the root node to it. */
  method InitPosition(o: SharedObject, defaults: Defaults, root: Node) returns (r: Routed)
    ensures IsOrigin(o.pose.position) ==> r.obj.pose.position == defaults.position && Notified(r.effects) == ["position"]
    ensures !IsOrigin(o.pose.position) ==> r == Routed(o, [])
    ensures r.obj.pose == o.pose.(position := r.obj.pose.position)
    ensures r.obj == o.(pose := r.obj.pose, translate := r.obj.translate)
    // the translation handle (the object's own, else a new one at the
    // root) is driven to the default and the change reported at the root
    ensures IsOrigin(o.pose.position) ==> r.obj.translate == Some(GetOr(o.translate, Animation(PositionAnim, root)))
    ensures IsOrigin(o.pose.position) ==>
              WithoutCreations(r.effects) ==
              [UpdateAnimation(Translate, GetOr(o.translate, Animation(PositionAnim, root)), Some(defaults.position)), NotifyChange("position", root)]
  {
    if IsOrigin(o.pose.position) {
      var o' := o.(pose := o.pose.(position := defaults.position));
      r := ChangeObject(o', ["position"], Some(root));
      assert ["position"][1..] == [];
      assert Trace(ObjectMode, o', ["position"], root) == [Act(ObjectMode, o', "position", root), NotifyChange("position", root)];
      assert SlotOf(r.obj, Translate) == SlotAfter(ObjectMode, o', ["position"], root, Translate);
      assert SlotOf(r.obj, Rescale) == SlotOf(o', Rescale) && SlotOf(r.obj, Rotate) == SlotOf(o', Rotate);
    } else {
      r := Routed(o, []);
    }
  }

  /** Applies the default rotation to a video avatar whose rotation is
      present but still the origin. An absent rotation is left alone. */
  method InitRotation(o: SharedObject, defaults: Defaults, root: Node) returns (r: Routed)
    ensures o.pose.rotation.Some? && IsOrigin(o.pose.rotation.value) ==>
      r.obj.pose.rotation == Some(defaults.rotation) && Notified(r.effects) == ["rotation"]
    ensures !(o.pose.rotation.Some? && IsOrigin(o.pose.rotation.value)) ==> r == Routed(o, [])
    ensures r.obj.pose == o.pose.(rotation := r.obj.pose.rotation)
    ensures r.obj == o.(pose := r.obj.pose, rotate := r.obj.rotate)
    // the rotation handle (the object's own, else a new one at the root)
    // is driven to the default and the change reported at the root
    ensures o.pose.rotation.Some? && IsOrigin(o.pose.rotation.value) ==>
      r.obj.rotate == Some(GetOr(o.rotate, Animation(RotationAnim, root)))
    ensures o.pose.rotation.Some? && IsOrigin(o.pose.rotation.value) ==>
              WithoutCreations(r.effects) ==
              [UpdateAnimation(Rotate, GetOr(o.rotate, Animation(RotationAnim, root)), Some(defaults.rotation)), NotifyChange("rotation", root)]
  {
    if o.pose.rotation.Some? && IsOrigin(o.pose.rotation.value) {
      var o' := o.(pose := o.pose.(rotation := Some(defaults.rotation)));
      r := ChangeObject(o', ["rotation"], Some(root));
      assert ["rotation"][1..] == [];
      assert Trace(ObjectMode, o', ["rotation"], root) == [Act(ObjectMode, o', "rotation", root), NotifyChange("rotation", root)];
      assert SlotOf(r.obj, Rotate) == SlotAfter(ObjectMode, o', ["rotation"], root, Rotate);
      assert SlotOf(r.obj, Rescale) == SlotOf(o', Rescale) && SlotOf(r.obj, Translate) == SlotOf(o', Translate);
    } else {
      r := Routed(o, []);
    }
  }

  /** What follows the initial changes on every loading path: install the
      change listener, connect the media stream (or warn that there are no
      media streams), tell the load listeners. */
  function Attach(mode: Mode, listenerNode: Option<Node>, streamEffect: seq<Effect>, representation: nat): (r: seq<Effect>)
    ensures |r| == |streamEffect| + 2
    ensures r[0] == AddChangeListener(mode, listenerNode) && r[|r| - 1] == NotifyLoad(representation)
    ensures r[1..|r| - 1] == streamEffect
  {
    [AddChangeListener(mode, listenerNode)] + streamEffect + [NotifyLoad(representation)]
  }

  /** `loadStream`: show the video avatar `video` (made by the avatar factory)
      under a new root node; a position or rotation still at the origin means
      "not yet initialized" and is replaced by the default. */
  method LoadStream(o: SharedObject, defaults: Defaults, mediaStreams: bool, video: Target) returns (r: StreamLoad)
    ensures r.obj.video == Some(video)
    ensures r.altText == AltText(o)
    // placed as PlaceStream places, at the avatar's own root node
    ensures IsOrigin(o.pose.position) ==> r.obj.pose.position == defaults.position
    ensures !IsOrigin(o.pose.position) ==> r.obj.pose.position == o.pose.position
    ensures o.pose.rotation.None? ==> r.obj.pose.rotation.None?
    ensures o.pose.rotation.Some? && IsOrigin(o.pose.rotation.value) ==> r.obj.pose.rotation == Some(defaults.rotation)
    ensures o.pose.rotation.Some? && !IsOrigin(o.pose.rotation.value) ==> r.obj.pose.rotation == o.pose.rotation
    ensures r.obj.pose == o.pose.(position := r.obj.pose.position, rotation := r.obj.pose.rotation)
    ensures r.obj == o.(video := Some(video), pose := r.obj.pose, translate := r.obj.translate, rotate := r.obj.rotate)
    ensures Notified(r.effects) ==
      (if IsOrigin(o.pose.position) then ["position"] else [])
      + (if o.pose.rotation.Some? && IsOrigin(o.pose.rotation.value) then ["rotation"] else [])
    // defaults are applied at most once: with defaults that are not the
    // origin the result is settled, and a settled object is left alone
    ensures !IsOrigin(defaults.position) && !IsOrigin(defaults.rotation) ==> Settled(r.obj.pose)
    ensures Settled(o.pose) ==> r.obj.pose == o.pose && Notified(r.effects) == []
    // the root node is placed where the object now is
    ensures r.rootPosition == r.obj.pose.position && r.rootRotation == r.obj.pose.rotation
    // the defaults drive the handles at the root node
    ensures r.obj.translate ==
      if IsOrigin(o.pose.position) then Some(GetOr(o.translate, Animation(PositionAnim, StreamRoot(o.id)))) else o.translate
    ensures r.obj.rotate ==
      if o.pose.rotation.Some? && IsOrigin(o.pose.rotation.value)
      then Some(GetOr(o.rotate, Animation(RotationAnim, StreamRoot(o.id)))) else o.rotate
    ensures var root := StreamRoot(o.id);
            WithoutCreations(r.effects) ==
              (if IsOrigin(o.pose.position)
               then [UpdateAnimation(Translate, GetOr(o.translate, Animation(PositionAnim, root)), Some(defaults.position)), NotifyChange("position", root)]
               else [])
              + (if o.pose.rotation.Some? && IsOrigin(o.pose.rotation.value)
                 then [UpdateAnimation(Rotate, GetOr(o.rotate, Animation(RotationAnim, root)), Some(defaults.rotation)), NotifyChange("rotation", root)]
                 else [])
              + Attach(ObjectMode, Some(root), [if mediaStreams then StreamToMesh else NoMediaStreams], video.ref)
    // then the listener at the root node, the stream, and the load report
    ensures var tail := Attach(ObjectMode, Some(StreamRoot(o.id)), [if mediaStreams then StreamToMesh else NoMediaStreams], video.ref);
            |r.effects| >= 3 && r.effects[|r.effects| - 3..] == tail
  {
    var root := StreamRoot(o.id);
    var placed := PlaceStream(o.(video := Some(video)), defaults, root);
    var done := Finish(placed, ObjectMode, Some(root), [if mediaStreams then StreamToMesh else NoMediaStreams], video.ref);
    r := StreamLoad(placed.obj, placed.obj.pose.position, placed.obj.pose.rotation, AltText(o), done.effects);
  }

  /** Places a new video avatar: a position still at the origin is replaced
      by the default, and so is a rotation that is present but still the
      origin; only the replaced values are applied and reported, position
      first. */
  method PlaceStream(o: SharedObject, defaults: Defaults, root: Node) returns (r: Routed)
    ensures IsOrigin(o.pose.position) ==> r.obj.pose.position == defaults.position
    ensures !IsOrigin(o.pose.position) ==> r.obj.pose.position == o.pose.position
    ensures o.pose.rotation.None? ==> r.obj.pose.rotation.None?
    ensures o.pose.rotation.Some? && IsOrigin(o.pose.rotation.value) ==> r.obj.pose.rotation == Some(defaults.rotation)
    ensures o.pose.rotation.Some? && !IsOrigin(o.pose.rotation.value) ==> r.obj.pose.rotation == o.pose.rotation
    ensures Notified(r.effects) ==
      (if IsOrigin(o.pose.position) then ["position"] else [])
      + (if o.pose.rotation.Some? && IsOrigin(o.pose.rotation.value) then ["rotation"] else [])
    ensures r.obj.pose == o.pose.(position := r.obj.pose.position, rotation := r.obj.pose.rotation)
    ensures r.obj == o.(pose := r.obj.pose, translate := r.obj.translate, rotate := r.obj.rotate)
    ensures Settled(o.pose) ==> r == Routed(o, [])
    ensures r.obj.translate ==
      if IsOrigin(o.pose.position) then Some(GetOr(o.translate, Animation(PositionAnim, root))) else o.translate
    ensures r.obj.rotate ==
      if o.pose.rotation.Some? && IsOrigin(o.pose.rotation.value) then Some(GetOr(o.rotate, Animation(RotationAnim, root))) else o.rotate
    ensures WithoutCreations(r.effects) ==
      (if IsOrigin(o.pose.position)
       then [UpdateAnimation(Translate, GetOr(o.translate, Animation(PositionAnim, root)), Some(defaults.position)), NotifyChange("position", root)]
       else [])
      + (if o.pose.rotation.Some? && IsOrigin(o.pose.rotation.value)
         then [UpdateAnimation(Rotate, GetOr(o.rotate, Animation(RotationAnim, root)), Some(defaults.rotation)), NotifyChange("rotation", root)]
         else [])
  {
    var p := InitPosition(o, defaults, root);
    var q := InitRotation(p.obj, defaults, root);
    NotifiedAppend(p.effects, q.effects);
    r := Routed(q.obj, p.effects + q.effects);
  }

  lemma NoNotifications(effects: seq<Effect>)
    requires forall i :: 0 <= i < |effects| ==> !effects[i].NotifyChange?
    ensures Notified(effects) == []
  {
    if |effects| > 0 {
      NoNotifications(effects[1..]);
    }
  }

  lemma {:induction false} NoCreations(effects: seq<Effect>)
    requires forall i :: 0 <= i < |effects| ==> !effects[i].CreateAnimation?
    ensures WithoutCreations(effects) == effects
    decreases |effects|
  {
    if |effects| > 0 {
      NoCreations(effects[1..]);
      assert effects == [effects[0]] + effects[1..];
    }
  }

  /** Attaching adds no notification and ends the effect list. */
  lemma AttachSuffix(effects: seq<Effect>, tail: seq<Effect>)
    requires forall i :: 0 <= i < |tail| ==> !tail[i].NotifyChange? && !tail[i].CreateAnimation?
    ensures Notified(effects + tail) == Notified(effects)
    ensures WithoutCreations(effects + tail) == WithoutCreations(effects) + tail
    ensures (effects + tail)[|effects + tail| - |tail|..] == tail
    ensures |effects| > 0 ==> (effects + tail)[0] == effects[0]
  {
    NotifiedAppend(effects, tail);
    NoNotifications(tail);
    NoCreations(tail);
  }

  /** Ends a loading path: the attachment follows the catch-up effects. */
  method Finish(caught: Routed, mode: Mode, listenerNode: Option<Node>, streamEffect: seq<Effect>, representation: nat)
    returns (r: Routed)
    requires forall i :: 0 <= i < |streamEffect| ==> !streamEffect[i].NotifyChange? && !streamEffect[i].CreateAnimation?
    ensures r.obj == caught.obj
    ensures Notified(r.effects) == Notified(caught.effects)
    ensures WithoutCreations(r.effects) == WithoutCreations(caught.effects) + Attach(mode, listenerNode, streamEffect, representation)
    ensures |caught.effects| > 0 ==> |r.effects| > 0 && r.effects[0] == caught.effects[0]
    ensures var tail := Attach(mode, listenerNode, streamEffect, representation);
            |r.effects| >= |tail| && r.effects[|r.effects| - |tail|..] == tail
  {
    var tail := Attach(mode, listenerNode, streamEffect, representation);
    AttachSuffix(caught.effects, tail);
    r := Routed(caught.obj, caught.effects + tail);
  }

  // ------------------------------------------------------------- 3D avatars

  /** A slot after a guarded single-field batch: created at `node` when the
      guard holds, the slot was empty and the field drives it, otherwise as
      it was. */
  function GrownBy(mode: Mode, o: SharedObject, s: AnimSlot, present: bool, field: string, node: Node): Option<Animation> {
    if present && SlotOf(o, s).None? && Drives(mode, s, field) then Some(Animation(SlotKind(mode, s), node)) else SlotOf(o, s)
  }

  /** A batch of one field, applied only when the guarding value is present
      or truthy; the batch is one iteration of the loop over fields. */
  method ChangeIf(mode: Mode, o: SharedObject, present: bool, field: string, node: Node) returns (r: Routed)
    ensures Notified(r.effects) == if present then [field] else []
    ensures WithoutCreations(r.effects) == if present then Trace(mode, o, [field], node) else []
    ensures SlotOf(r.obj, Translate) == GrownBy(mode, o, Translate, present, field, node)
    ensures SlotOf(r.obj, Rotate) == GrownBy(mode, o, Rotate, present, field, node)
    ensures SlotOf(r.obj, Rescale) == GrownBy(mode, o, Rescale, present, field, node)
    ensures Grew(mode, o, r.obj, node)
  {
    if present {
      r := Step(mode, o, field, node);
      assert [field][1..] == [];
      assert Trace(mode, o, [field], node) == [Act(mode, o, field, node), NotifyChange(field, node)];
    } else {
      r := Routed(o, []);
    }
  }

  /** A slot after two guarded single-field batches: created at `node` when
      it was empty and a present field drives it, otherwise as it was. */
  function Grown(mode: Mode, o: SharedObject, s: AnimSlot, present1: bool, field1: string,
                 present2: bool, field2: string, node: Node): Option<Animation> {
    if SlotOf(o, s).None? && ((present1 && Drives(mode, s, field1)) || (present2 && Drives(mode, s, field2)))
    then Some(Animation(SlotKind(mode, s), node))
    else SlotOf(o, s)
  }

  /** Two guarded batches grow a slot as the pair of guards does. */
  lemma GrownTwice(mode: Mode, o: SharedObject, a: SharedObject, s: AnimSlot, present1: bool, field1: string,
                   present2: bool, field2: string, node: Node)
    requires SlotOf(a, s) == GrownBy(mode, o, s, present1, field1, node)
    ensures GrownBy(mode, a, s, present2, field2, node) == Grown(mode, o, s, present1, field1, present2, field2, node)
  {
  }

  /** Two guarded single-field batches, one after the other. */
  method ChangeIf2(mode: Mode, o: SharedObject, present1: bool, field1: string,
                   present2: bool, field2: string, node: Node) returns (r: Routed)
    ensures Notified(r.effects) == (if present1 then [field1] else []) + (if present2 then [field2] else [])
    // both actions are judged from the object as it was before either batch
    ensures WithoutCreations(r.effects) ==
      (if present1 then Trace(mode, o, [field1], node) else []) + (if present2 then Trace(mode, o, [field2], node) else [])
    ensures SlotOf(r.obj, Translate) == Grown(mode, o, Translate, present1, field1, present2, field2, node)
    ensures SlotOf(r.obj, Rotate) == Grown(mode, o, Rotate, present1, field1, present2, field2, node)
    ensures SlotOf(r.obj, Rescale) == Grown(mode, o, Rescale, present1, field1, present2, field2, node)
    ensures Grew(mode, o, r.obj, node)
  {
    var a := ChangeIf(mode, o, present1, field1, node);
    var b := ChangeIf(mode, a.obj, present2, field2, node);
    GrownTwice(mode, o, a.obj, Translate, present1, field1, present2, field2, node);
    GrownTwice(mode, o, a.obj, Rotate, present1, field1, present2, field2, node);
    GrownTwice(mode, o, a.obj, Rescale, present1, field1, present2, field2, node);
    ChangeRouter.GrewTwice(mode, o, a.obj, b.obj, node);
    TraceStable(mode, o, a.obj, [field2], node);
    NotifiedAppend(a.effects, b.effects);
    r := Routed(b.obj, a.effects + b.effects);
  }

  /** The first batch a loaded avatar gets: its name, then its position,
      which creates the translation handle at the avatar's parent mesh on
      first use. */
  method NameAndPosition(o: SharedObject) returns (r: Routed)
    requires o.container.Some?
    ensures Notified(r.effects) == ["name", "position"]
    ensures WithoutCreations(r.effects) == Trace(AvatarMode, o, ["name", "position"], ParentMesh(o.container.value.ref))
    ensures |r.effects| > 0 && r.effects[0] == SetName(o.name)
    ensures r.obj.translate == Some(GetOr(o.translate, Animation(PositionAnim, ParentMesh(o.container.value.ref))))
    ensures r.obj == o.(translate := r.obj.translate)
    ensures Grew(AvatarMode, o, r.obj, ParentMesh(o.container.value.ref))
  {
    var node := ParentMesh(o.container.value.ref);
    var fields := ["name", "position"];
    assert !ArmRecordMissing(o, fields[0]) && !ArmRecordMissing(o, fields[1]);
    NothingThrows(o, fields);
    r := ChangeAvatar(o, fields);
    ApplyGrew(AvatarMode, o, fields, node);
    assert SlotOf(r.obj, Translate) == SlotAfter(AvatarMode, o, fields, node, Translate);
    assert SlotOf(r.obj, Rotate) == SlotAfter(AvatarMode, o, fields, node, Rotate);
    assert SlotOf(r.obj, Rescale) == SlotAfter(AvatarMode, o, fields, node, Rescale);
    AvatarFirstEffect(o);
  }

  /** Applying the name first sets it on the avatar. */
  lemma AvatarFirstEffect(o: SharedObject)
    requires o.container.Some?
    ensures |ChangeAvatar(o, ["name", "position"]).effects| > 0
    ensures ChangeAvatar(o, ["name", "position"]).effects[0] == SetName(o.name)
  {
    var node := ParentMesh(o.container.value.ref);
    var fields := ["name", "position"];
    assert !ArmRecordMissing(o, fields[0]) && !ArmRecordMissing(o, fields[1]);
    NothingThrows(o, fields);
    ApplyCons(AvatarMode, o, fields, node);
    HandleAvatarFields(o, "name", node);
  }

  /** The fields a freshly loaded avatar is brought up to date with: name
      and position, the rotation if there is one, the animation if truthy. */
  function CatchUpFields(o: SharedObject): seq<string> {
    ["name", "position"] + ((if o.pose.rotation.Some? then ["rotation"] else []) + (if Truthy(o.animation) then ["animation"] else []))
  }

  /** A guarded batch of one field traces as the field does, or not at all. */
  lemma TraceIf(mode: Mode, o: SharedObject, present: bool, field: string, node: Node)
    ensures (if present then Trace(mode, o, [field], node) else []) == Trace(mode, o, if present then [field] else [], node)
  {
  }

  /** Brings a freshly loaded avatar up to date, in three batches: name and
      position, then the rotation, then the animation. Every action is
      judged from the object as it was loaded, and the rotation drives the
      quaternion handle at the avatar's parent mesh. */
  method AvatarCatchUp(o: SharedObject) returns (r: Routed)
    requires o.container.Some?
    ensures Notified(r.effects) == CatchUpFields(o)
    ensures WithoutCreations(r.effects) == Trace(AvatarMode, o, CatchUpFields(o), ParentMesh(o.container.value.ref))
    ensures |r.effects| > 0 && r.effects[0] == SetName(o.name)
    ensures r.obj.translate == Some(GetOr(o.translate, Animation(PositionAnim, ParentMesh(o.container.value.ref))))
    ensures o.pose.rotation.Some? ==> r.obj.rotate == Some(GetOr(o.rotate, Animation(QuaternionAnim, ParentMesh(o.container.value.ref))))
    ensures o.pose.rotation.None? ==> r.obj.rotate == o.rotate
    ensures r.obj == o.(translate := r.obj.translate, rotate := r.obj.rotate)
  {
    var node := ParentMesh(o.container.value.ref);
    var a := NameAndPosition(o);
    var b := ChangeIf2(AvatarMode, a.obj, o.pose.rotation.Some?, "rotation", Truthy(o.animation), "animation", node);
    // an avatar's fields never drive its scale, nor anything but the
    // rotation its position
    assert b.obj.rescale == o.rescale && b.obj.translate == a.obj.translate;
    assert a.obj.rotate == o.rotate;
    assert (a.effects + b.effects)[0] == a.effects[0];
    NotifiedAppend(a.effects, b.effects);
    TraceStable(AvatarMode, o, a.obj, ["rotation"], node);
    TraceStable(AvatarMode, o, a.obj, ["animation"], node);
    CatchUpTrace(o, node);
    r := Routed(b.obj, a.effects + b.effects);
  }

  /** The catch-up fields trace as the three batches do. */
  lemma CatchUpTrace(o: SharedObject, node: Node)
    ensures Trace(AvatarMode, o, CatchUpFields(o), node) ==
      Trace(AvatarMode, o, ["name", "position"], node)
      + ((if o.pose.rotation.Some? then Trace(AvatarMode, o, ["rotation"], node) else [])
         + (if Truthy(o.animation) then Trace(AvatarMode, o, ["animation"], node) else []))
  {
    var rot: seq<string> := if o.pose.rotation.Some? then ["rotation"] else [];
    var anim: seq<string> := if Truthy(o.animation) then ["animation"] else [];
    TraceIf(AvatarMode, o, o.pose.rotation.Some?, "rotation", node);
    TraceIf(AvatarMode, o, Truthy(o.animation), "animation", node);
    TraceAppend(AvatarMode, o, rot, anim, node);
    TraceAppend(AvatarMode, o, ["name", "position"], rot + anim, node);
  }

  /** The callback of `loadAvatar` once the avatar has loaded: remember the
      avatar and its entries, bring it up to date, install the change
      listener, connect the media stream if there are media streams, and
      tell the load listeners. */
  method AvatarLoaded(o: SharedObject, avatar: Target, entries: Option<Target>, mediaStreams: bool) returns (r: Routed)
    ensures Notified(r.effects) == CatchUpFields(o)
    ensures var tail := Attach(AvatarMode, None, if mediaStreams then [StreamToMesh] else [], avatar.ref);
            WithoutCreations(r.effects) ==
              Trace(AvatarMode, o.(container := Some(avatar), instantiatedEntries := entries), CatchUpFields(o), ParentMesh(avatar.ref)) + tail
    ensures |r.effects| > 0 && r.effects[0] == SetName(o.name)
    ensures r.obj.container == Some(avatar) && r.obj.instantiatedEntries == entries
    ensures r.obj.translate == Some(GetOr(o.translate, Animation(PositionAnim, ParentMesh(avatar.ref))))
    ensures o.pose.rotation.Some? ==> r.obj.rotate == Some(GetOr(o.rotate, Animation(QuaternionAnim, ParentMesh(avatar.ref))))
    ensures o.pose.rotation.None? ==> r.obj.rotate == o.rotate
    ensures r.obj == o.(container := Some(avatar), instantiatedEntries := entries, translate := r.obj.translate, rotate := r.obj.rotate)
    ensures var tail := Attach(AvatarMode, None, if mediaStreams then [StreamToMesh] else [], avatar.ref);
            |r.effects| >= |tail| && r.effects[|r.effects| - |tail|..] == tail
  {
    var caught := RecordAndCatchUp(o, avatar, entries);
    r := Finish(caught, AvatarMode, None, if mediaStreams then [StreamToMesh] else [], avatar.ref);
  }

  /** The first half of that callback: the avatar and its entries are
      recorded on the object, which is then brought up to date. */
  method RecordAndCatchUp(o: SharedObject, avatar: Target, entries: Option<Target>) returns (r: Routed)
    ensures Notified(r.effects) == CatchUpFields(o)
    ensures WithoutCreations(r.effects) ==
      Trace(AvatarMode, o.(container := Some(avatar), instantiatedEntries := entries), CatchUpFields(o), ParentMesh(avatar.ref))
    ensures |r.effects| > 0 && r.effects[0] == SetName(o.name)
    ensures r.obj.translate == Some(GetOr(o.translate, Animation(PositionAnim, ParentMesh(avatar.ref))))
    ensures o.pose.rotation.Some? ==> r.obj.rotate == Some(GetOr(o.rotate, Animation(QuaternionAnim, ParentMesh(avatar.ref))))
    ensures o.pose.rotation.None? ==> r.obj.rotate == o.rotate
    ensures r.obj == o.(container := Some(avatar), instantiatedEntries := entries, translate := r.obj.translate, rotate := r.obj.rotate)
  {
    var loaded := o.(container := Some(avatar), instantiatedEntries := entries);
    r := AvatarCatchUp(loaded);
    assert CatchUpFields(loaded) == CatchUpFields(o);
  }

  // ---------------------------------------------------------- generic meshes

  /** The changes a freshly loaded mesh is brought up to date with, at its
      root node: the position, then the scale and the rotation if present. */
  method MeshCatchUp(o: SharedObject) returns (r: Routed)
    requires o.container.Some? || o.instantiatedEntries.Some?
    ensures Notified(r.effects) == MeshFields(o)
    // each field drives its handle to the pose, judged from the object as
    // it was loaded, and is reported at the root node
    ensures WithoutCreations(r.effects) == Trace(ObjectMode, o, MeshFields(o), GetRootNode(o))
    ensures r.obj.translate == Some(GetOr(o.translate, Animation(PositionAnim, GetRootNode(o))))
    ensures o.pose.scale.Some? ==> r.obj.rescale == Some(GetOr(o.rescale, Animation(ScalingAnim, GetRootNode(o))))
    ensures o.pose.scale.None? ==> r.obj.rescale == o.rescale
    ensures o.pose.rotation.Some? ==> r.obj.rotate == Some(GetOr(o.rotate, Animation(RotationAnim, GetRootNode(o))))
    ensures o.pose.rotation.None? ==> r.obj.rotate == o.rotate
    ensures r.obj.rescale.Some? <==> o.rescale.Some? || o.pose.scale.Some?
    ensures r.obj.rotate.Some? <==> o.rotate.Some? || o.pose.rotation.Some?
    ensures r.obj == o.(translate := r.obj.translate, rotate := r.obj.rotate, rescale := r.obj.rescale)
  {
    var node := GetRootNode(o);
    var a := ChangeIf(ObjectMode, o, true, "position", node);
    var b := ChangeIf2(ObjectMode, a.obj, o.pose.scale.Some?, "scale", o.pose.rotation.Some?, "rotation", node);
    NotifiedAppend(a.effects, b.effects);
    TraceStable(ObjectMode, o, a.obj, ["scale"], node);
    TraceStable(ObjectMode, o, a.obj, ["rotation"], node);
    MeshTrace(o, node);
    r := Routed(b.obj, a.effects + b.effects);
  }

  /** The fields a freshly loaded mesh is brought up to date with: the
      position, then the scale and the rotation if present. */
  function MeshFields(o: SharedObject): seq<string> {
    ["position"] + ((if o.pose.scale.Some? then ["scale"] else []) + (if o.pose.rotation.Some? then ["rotation"] else []))
  }

  /** The mesh fields trace as the three batches do. */
  lemma MeshTrace(o: SharedObject, node: Node)
    ensures Trace(ObjectMode, o, MeshFields(o), node) ==
      Trace(ObjectMode, o, ["position"], node)
      + ((if o.pose.scale.Some? then Trace(ObjectMode, o, ["scale"], node) else [])
         + (if o.pose.rotation.Some? then Trace(ObjectMode, o, ["rotation"], node) else []))
  {
    var sc: seq<string> := if o.pose.scale.Some? then ["scale"] else [];
    var rot: seq<string> := if o.pose.rotation.Some? then ["rotation"] else [];
    TraceIf(ObjectMode, o, o.pose.scale.Some?, "scale", node);
    TraceIf(ObjectMode, o, o.pose.rotation.Some?, "rotation", node);
    TraceAppend(ObjectMode, o, sc, rot, node);
    TraceAppend(ObjectMode, o, ["position"], sc + rot, node);
  }

  /** The callback of `loadMesh` once the asset loader has placed the mesh
      (the loader has already set the object's container or entries, which
      give the root node the catch-up is applied to): bring
      it up to date, install the change listener, connect the media stream
      if there are media streams, and tell the load listeners. Unlike video
      avatars, no default replaces a position at the origin: the pose stays
      as the network delivered it. */
  method MeshLoaded(o: SharedObject, mesh: nat, mediaStreams: bool) returns (r: Routed)
    requires o.container.Some? || o.instantiatedEntries.Some?
    ensures Notified(r.effects) == MeshFields(o)
    // the mesh is driven to its pose at its root node, then attached
    ensures WithoutCreations(r.effects) ==
      Trace(ObjectMode, o, MeshFields(o), GetRootNode(o)) + Attach(ObjectMode, None, if mediaStreams then [StreamToMesh] else [], mesh)
    ensures r.obj.translate == Some(GetOr(o.translate, Animation(PositionAnim, GetRootNode(o))))
    ensures o.pose.scale.Some? ==> r.obj.rescale == Some(GetOr(o.rescale, Animation(ScalingAnim, GetRootNode(o))))
    ensures o.pose.scale.None? ==> r.obj.rescale == o.rescale
    ensures o.pose.rotation.Some? ==> r.obj.rotate == Some(GetOr(o.rotate, Animation(RotationAnim, GetRootNode(o))))
    ensures o.pose.rotation.None? ==> r.obj.rotate == o.rotate
    ensures r.obj.rescale.Some? <==> o.rescale.Some? || o.pose.scale.Some?
    ensures r.obj.rotate.Some? <==> o.rotate.Some? || o.pose.rotation.Some?
    ensures r.obj.pose == o.pose
    ensures r.obj == o.(translate := r.obj.translate, rotate := r.obj.rotate, rescale := r.obj.rescale)
    ensures var tail := Attach(ObjectMode, None, if mediaStreams then [StreamToMesh] else [], mesh);
            |r.effects| >= |tail| && r.effects[|r.effects| - |tail|..] == tail
  {
    var caught := MeshCatchUp(o);
    r := Finish(caught, ObjectMode, None, if mediaStreams then [StreamToMesh] else [], mesh);
  }
}

=== FILE: scene_events.dfy ===
/** The scene listener of the world manager: a membership event either adds
    an object, which is classified into one loading path, or removes one. */
module SceneEvents {
  import opened WorldTypes

  /** A scene event: `added` and `removed` are null unless set. */
  datatype SceneEvent = SceneEvent(added: Option<SharedObject>, removed: Option<SharedObject>)

  /** What the world manager does with an event. */
  datatype Action =
    | LoadAvatar(obj: SharedObject)   // articulated 3D avatar
    | LoadStream(obj: SharedObject)   // video avatar
    | LoadMesh(obj: SharedObject)     // generic mesh
    | SkipNoMesh(obj: SharedObject)   // warning: nothing to load
    | RemoveMesh(obj: SharedObject)
    | InvalidEvent

  /** The mesh marker of a live video stream. */
  const VideoMesh: string := "video"

  /** `sceneChanged`: an added object takes exactly one path, in priority
      order avatar, stream, mesh, nothing; otherwise a removed object is
      removed. */
  function SceneChanged(e: SceneEvent): (r: Action)
    ensures r.LoadAvatar? <==> e.added.Some? && e.added.value.hasAvatar
    ensures r.LoadStream? <==> e.added.Some? && !e.added.value.hasAvatar && e.added.value.mesh == Some(VideoMesh)
    ensures r.LoadMesh? <==>
      e.added.Some? && !e.added.value.hasAvatar && e.added.value.mesh != Some(VideoMesh) && Truthy(e.added.value.mesh)
    ensures r.SkipNoMesh? <==> e.added.Some? && !e.added.value.hasAvatar && !Truthy(e.added.value.mesh)
    ensures r.RemoveMesh? <==> e.added.None? && e.removed.Some?
    ensures r.InvalidEvent? <==> e.added.None? && e.removed.None?
    ensures e.added.Some? ==> !r.InvalidEvent? && !r.RemoveMesh? && r.obj == e.added.value
    ensures r.RemoveMesh? ==> r.obj == e.removed.value
  {
    match e.added
    case Some(o) =>
      if o.hasAvatar then LoadAvatar(o)
      else if o.mesh == Some(VideoMesh) then LoadStream(o)
      else if Truthy(o.mesh) then LoadMesh(o)
      else SkipNoMesh(o)
    case None =>
      match e.removed
      case Some(o) => RemoveMesh(o)
      case None => InvalidEvent
  }

  /** An avatar capability wins over any mesh reference, including "video";
      and an event that both adds and removes is treated as an addition. */
  lemma AvatarTakesPriority(o: SharedObject, removed: Option<SharedObject>)
    requires o.hasAvatar
    ensures SceneChanged(SceneEvent(Some(o), removed)) == LoadAvatar(o)
  {
  }

  /** An empty mesh string is falsy: such an object is skipped, not loaded. */
  lemma EmptyMeshIsSkipped(o: SharedObject)
    requires !o.hasAvatar && o.mesh == Some("")
    ensures SceneChanged(SceneEvent(Some(o), None)) == SkipNoMesh(o)
  {
  }
}

=== FILE: session.dfy ===
/** The session timer of the world manager: the interval that runs the change
    tracker is the only thing that says whether the client is online. */
module Session {
  import opened WorldTypes

  /** Network frames per second when the constructor is given none. */
  const DefaultFps: real := 5.0

  /** The constructor keeps a requested frame rate only when it is truthy, so
      a missing argument and 0 both fall back to the default. Any other
      number, fractional or negative, is kept as given. */
  function Fps(requested: Option<real>): (r: real)
    ensures r != 0.0
    ensures requested.Some? && requested.value != 0.0 ==> r == requested.value
    ensures requested.None? || requested.value == 0.0 ==> r == DefaultFps
  {
    if requested.Some? && requested.value != 0.0 then requested.value else DefaultFps
  }

  /** Interval period in milliseconds, `1000 / fps`: `fps` periods make a
      second. */
  function PeriodMs(fps: real): (r: real)
    requires fps != 0.0
    ensures r * fps == 1000.0
  {
    1000.0 / fps
  }

  /** `interval` is the handle of the running timer, if any; `nextTimer` is
      the handle the next `setInterval` returns (browsers hand out positive
      handles, so a running timer's handle is always truthy). */
  datatype SessionState = SessionState(interval: Option<nat>, nextTimer: nat)

  const Offline: SessionState := SessionState(None, 1)

  datatype TimerEffect = StartInterval(timer: nat, periodMs: real) | ClearInterval(timer: nat)

  datatype StatusStep = StatusStep(state: SessionState, effects: seq<TimerEffect>)

  /** `isOnline()`: a timer is running. */
  predicate IsOnline(s: SessionState) {
    s.interval.Some?
  }

  /** Connection listener: turning the session on starts the tracker timer
      unless one runs; turning it off clears the running timer, if any. */
  function SetSessionStatus(s: SessionState, active: bool, fps: real): (r: StatusStep)
    requires fps != 0.0
    ensures IsOnline(r.state) <==> active
    ensures IsOnline(s) == active ==> r == StatusStep(s, [])
    ensures active && !IsOnline(s) ==>
      r.effects == [StartInterval(s.nextTimer, PeriodMs(fps))] && r.state.interval == Some(s.nextTimer)
    ensures !active && IsOnline(s) ==> r.effects == [ClearInterval(s.interval.value)]
    ensures r.state.nextTimer >= s.nextTimer
  {
    if active then
      if s.interval.None? then
        StatusStep(SessionState(Some(s.nextTimer), s.nextTimer + 1), [StartInterval(s.nextTimer, PeriodMs(fps))])
      else
        StatusStep(s, [])
    else if s.interval.Some? then
      StatusStep(s.(interval := None), [ClearInterval(s.interval.value)])
    else
      StatusStep(s, [])
  }

  /** Repeating the same status call changes nothing and emits nothing. */
  lemma SetSessionStatusIdempotent(s: SessionState, active: bool, fps: real)
    requires fps != 0.0
    ensures var once := SetSessionStatus(s, active, fps);
            SetSessionStatus(once.state, active, fps) == StatusStep(once.state, [])
  {
  }

  /** Applies a sequence of status calls, collecting the timer effects. */
  function Replay(s: SessionState, statuses: seq<bool>, fps: real): StatusStep
    requires fps != 0.0
    decreases |statuses|
  {
    if |statuses| == 0 then StatusStep(s, [])
    else
      var first := SetSessionStatus(s, statuses[0], fps);
      var rest := Replay(first.state, statuses[1..], fps);
      StatusStep(rest.state, first.effects + rest.effects)
  }

  function Starts(effects: seq<TimerEffect>): nat {
    if |effects| == 0 then 0
    else (if effects[0].StartInterval? then 1 else 0) + Starts(effects[1..])
  }

  function Clears(effects: seq<TimerEffect>): nat {
    if |effects| == 0 then 0
    else (if effects[0].ClearInterval? then 1 else 0) + Clears(effects[1..])
  }

  lemma {:induction false} CountsAppend(a: seq<TimerEffect>, b: seq<TimerEffect>)
    ensures Starts(a + b) == Starts(a) + Starts(b)
    ensures Clears(a + b) == Clears(a) + Clears(b)
  {
    if |a| == 0 {
      assert a + b == b;
    } else {
      assert (a + b)[1..] == a[1..] + b;
      CountsAppend(a[1..], b);
    }
  }

  function Running(s: SessionState): int {
    if IsOnline(s) then 1 else 0
  }

  /** Over any sequence of status calls, every timer started is cleared
      except the one still running: starts minus clears is the change in the
      number of running timers (0 or 1), and the final status is the last
      call's. */
  lemma {:induction false} ReplayBalanced(s: SessionState, statuses: seq<bool>, fps: real)
    requires fps != 0.0
    ensures var r := Replay(s, statuses, fps);
            && Starts(r.effects) - Clears(r.effects) == Running(r.state) - Running(s)
            && (|statuses| > 0 ==> (IsOnline(r.state) <==> statuses[|statuses| - 1]))
            && (|statuses| == 0 ==> r.state == s)
    decreases |statuses|
  {
    if |statuses| > 0 {
      var first := SetSessionStatus(s, statuses[0], fps);
      ReplayBalanced(first.state, statuses[1..], fps);
      var rest := Replay(first.state, statuses[1..], fps);
      CountsAppend(first.effects, rest.effects);
      if |statuses| > 1 {
        assert statuses[1..][|statuses[1..]| - 1] == statuses[|statuses| - 1];
      }
    }
  }

  /** `true, true, false, false` starts exactly one timer and clears it once. */
  lemma OnTwiceOffTwice(fps: real)
    requires fps != 0.0
    ensures Replay(Offline, [true, true, false, false], fps).effects
            == [StartInterval(1, PeriodMs(fps)), ClearInterval(1)]
    ensures !IsOnline(Replay(Offline, [true, true, false, false], fps).state)
  {
    var s1 := SetSessionStatus(Offline, true, fps);
    var s2 := SetSessionStatus(s1.state, true, fps);
    var s3 := SetSessionStatus(s2.state, false, fps);
    var s4 := SetSessionStatus(s3.state, false, fps);
    assert [true, true, false, false][1..] == [true, false, false];
    assert [true, false, false][1..] == [false, false];
    assert [false, false][1..] == [false];
    assert [false][1..] == [];
  }
}

=== FILE: user_controller.dfy ===
/** The user endpoints of the server: whether a name may be used to log in,
    whether the session is authenticated, and the session user's object. The
    client database is a map from names to clients and the HTTP session a map
    from attribute names to values; the attribute that holds the user name is
    a parameter. */
module UserController {
  import opened WorldTypes

  /** A server-side client as far as these endpoints see it. */
  datatype Client = Client(name: Option<string>)

  /** Number of leading characters at or below the space character, the
      ones `String.trim` removes from the front. */
  function Leading(s: string): (n: nat)
    ensures n <= |s|
    ensures forall k :: 0 <= k < n ==> s[k] <= ' '
    ensures n < |s| ==> s[n] > ' '
  {
    if |s| == 0 || s[0] > ' ' then 0 else 1 + Leading(s[1..])
  }

  /** Number of trailing characters at or below the space character. */
  function Trailing(s: string): (n: nat)
    ensures n <= |s|
    ensures forall k :: |s| - n <= k < |s| ==> s[k] <= ' '
    ensures n < |s| ==> s[|s| - n - 1] > ' '
  {
    if |s| == 0 || s[|s| - 1] > ' ' then 0 else 1 + Trailing(s[..|s| - 1])
  }

  /** `String.trim`: the string without its leading and trailing control
      characters and spaces. */
  function Trim(s: string): (t: string)
    ensures Leading(s) + |t| <= |s|
    ensures t == s[Leading(s)..Leading(s) + |t|]
    ensures |t| > 0 ==> t[0] > ' ' && t[|t| - 1] > ' '
    ensures forall k :: Leading(s) + |t| <= k < |s| ==> s[k] <= ' '
  {
    var st := Leading(s);
    var n := Trailing(s[st..]);
    TrailingInPlace(s, st, n);
    var t := s[st..|s| - n];
    assert |t| > 0 ==> t[0] == s[st] && t[|t| - 1] == s[|s| - n - 1];
    t
  }

  /** The trailing blanks of a suffix of `s` are trailing blanks of `s`. */
  lemma TrailingInPlace(s: string, st: nat, n: nat)
    requires st <= |s| && n == Trailing(s[st..])
    ensures forall k :: |s| - n <= k < |s| ==> s[k] <= ' '
    ensures n < |s| - st ==> s[|s| - n - 1] > ' '
  {
    var rest := s[st..];
    forall k | |s| - n <= k < |s|
      ensures s[k] <= ' '
    {
      assert s[k] == rest[k - st];
    }
    if n < |rest| {
      assert s[|s| - n - 1] == rest[|rest| - n - 1];
    }
  }

  /** `StringUtils.isBlank`: null, or nothing left once trimmed. */
  function IsBlank(s: Option<string>): (r: bool)
    ensures r <==> s.None? || forall k :: 0 <= k < |s.value| ==> s.value[k] <= ' '
  {
    s.None? || Trim(s.value) == ""
  }

  /** `userName`: the session attribute holding the user name, null when
      absent. */
  function UserName(session: map<string, string>, attr: string): (r: Option<string>)
    ensures r.Some? <==> attr in session
    ensures r.Some? ==> r.value == session[attr]
  {
    if attr in session then Some(session[attr]) else None
  }

  /** `authenticated`: the session holds a user name. */
  function Authenticated(session: map<string, string>, attr: string): (r: bool)
    ensures r <==> UserName(session, attr).Some?
  {
    attr in session
  }

  /** `checkName`: a blank name is acceptable exactly when guests are; any
      other name is available when nobody has it, or when the client who has
      it carries a name equal to the session's current user name. */
  function CheckName(name: Option<string>, guestAllowed: bool, db: map<string, Client>,
                     session: map<string, string>, attr: string): (r: bool)
    ensures IsBlank(name) ==> r == guestAllowed
    ensures !IsBlank(name) && name.value !in db ==> r
    ensures !IsBlank(name) && name.value in db ==>
      (r <==> db[name.value].name.Some? && UserName(session, attr).Some?
              && db[name.value].name.value == UserName(session, attr).value)
  {
    if IsBlank(name) then guestAllowed
    else
      var current := UserName(session, attr);
      name.value !in db || (db[name.value].name.Some? && current == db[name.value].name)
  }

  /** `userObject`: nothing for an unauthenticated session, otherwise the
      database's client under the session's user name, if any. */
  function UserObject(db: map<string, Client>, session: map<string, string>, attr: string): (r: Option<Client>)
    ensures !Authenticated(session, attr) ==> r.None?
    ensures Authenticated(session, attr) && UserName(session, attr).value in db ==>
      r == Some(db[UserName(session, attr).value])
    ensures Authenticated(session, attr) && UserName(session, attr).value !in db ==> r.None?
  {
    match UserName(session, attr)
    case None => None
    case Some(current) => if current in db then Some(db[current]) else None
  }

  /** The answer for a blank name depends on nothing but the guest setting. */
  lemma BlankIgnoresDatabase(name: Option<string>, guestAllowed: bool,
                             db1: map<string, Client>, s1: map<string, string>,
                             db2: map<string, Client>, s2: map<string, string>, attr: string)
    requires IsBlank(name)
    ensures CheckName(name, guestAllowed, db1, s1, attr) == CheckName(name, guestAllowed, db2, s2, attr)
  {
  }

  /** A name somebody has is never available to an unauthenticated session. */
  lemma TakenNameNeedsLogin(name: string, guestAllowed: bool, db: map<string, Client>,
                            session: map<string, string>, attr: string)
    requires !IsBlank(Some(name)) && name in db && !Authenticated(session, attr)
    ensures !CheckName(Some(name), guestAllowed, db, session, attr)
  {
  }

  /** A logged-in user may always check their own name: when the session's
      user object carries the session's user name, that name is available. */
  lemma OwnNameAvailable(guestAllowed: bool, db: map<string, Client>, session: map<string, string>, attr: string)
    requires Authenticated(session, attr) && !IsBlank(UserName(session, attr))
    requires UserObject(db, session, attr) == Some(Client(UserName(session, attr)))
    ensures CheckName(UserName(session, attr), guestAllowed, db, session, attr)
  {
  }

  /** Two different sessions cannot both be told that the same taken name is
      theirs unless they are logged in under the same name. */
  lemma TakenNameHasOneOwner(name: string, db: map<string, Client>, s1: map<string, string>,
                             s2: map<string, string>, attr: string, guestAllowed: bool)
    requires !IsBlank(Some(name)) && name in db
    requires CheckName(Some(name), guestAllowed, db, s1, attr)
    requires CheckName(Some(name), guestAllowed, db, s2, attr)
    ensures UserName(s1, attr) == UserName(s2, attr)
  {
  }
}

=== FILE: world_types.dfy ===
/** Shared vocabulary of the world manager model: optional values, sampled
    coordinates, and the client-side view of a shared object (a VRObject)
    together with the handle slots the world manager hangs on it. */
module WorldTypes {

  /** JavaScript `null`/`undefined` versus a present value. */
  datatype Option<+T> = None | Some(value: T)

  /** The present value, else the default `d`. */
  function GetOr<T>(o: Option<T>, d: T): (r: T)
    ensures o.Some? ==> r == o.value
    ensures o.None? ==> r == d
  {
    if o.Some? then o.value else d
  }

  /** A Babylon Vector3 or Quaternion as read from the scene or the network.
      Both shapes answer `x`, `y` and `z`; only a quaternion has `w`. */
  datatype Sample =
    | Vec(x: real, y: real, z: real)
    | Quat(x: real, y: real, z: real, w: real)

  /** The server's "not yet initialized" marker: all three coordinates zero. */
  predicate IsOrigin(s: Sample) {
    s.x == 0.0 && s.y == 0.0 && s.z == 0.0
  }

  /** JavaScript truthiness of an optional string: null and "" are falsy. */
  predicate Truthy(s: Option<string>) {
    s.Some? && s.value != ""
  }

  /** An opaque representation object (an Avatar, a VideoAvatar, an
      AssetContainer or its instantiated entries), with the names of the
      functions it exposes, as seen by `typeof object[field] === 'function'`. */
  datatype Target = Target(ref: nat, methods: set<string>)

  /** The scene node a change is applied to and reported with. */
  datatype Node =
    | ParentMesh(avatar: nat)      // avatar.parentMesh
    | FirstMesh(container: nat)    // obj.container.meshes[0]
    | FirstRootNode(entries: nat)  // obj.instantiatedEntries.rootNodes[0]
    | StreamRoot(object: nat)      // the TransformNode created for a video avatar
    | NoNode                       // getRootNode found no root

  /** Which interpolation an animation handle drives. */
  datatype AnimKind = PositionAnim | RotationAnim | QuaternionAnim | ScalingAnim

  /** An interpolation handle created by the animation helper on a node. */
  datatype Animation = Animation(kind: AnimKind, node: Node)

  /** The pose fields of a shared object that the world manager reads. */
  datatype Pose = Pose(
    position: Sample,
    rotation: Option<Sample>,
    scale: Option<Sample>,
    // the arm records stay null until a VR user with that controller
    // sends them
    leftArmPos: Option<Sample>,
    rightArmPos: Option<Sample>,
    leftArmRot: Option<Sample>,
    rightArmRot: Option<Sample>)

  /** The client-side shared object. The first group of fields is data kept
      current by the network layer; `methods` names the functions the object
      itself exposes (looked up as `obj[field + 'Changed']`); the remaining
      fields are the slots the world manager fills and clears. */
  datatype SharedObject = SharedObject(
    id: nat,
    hasAvatar: bool,
    mesh: Option<string>,
    name: Option<string>,
    animation: Option<string>,
    userHeight: real,
    pose: Pose,
    methods: set<string>,
    container: Option<Target>,
    instantiatedEntries: Option<Target>,
    video: Option<Target>,
    translate: Option<Animation>,
    rotate: Option<Animation>,
    rescale: Option<Animation>,
    streamToMesh: Option<nat>)
}
